=== FILE: README.md ===
# Gate bridges and marker calibration, modelled in Dafny

This project models the parts of a robot-gate setup that decide what happens:

- the BLE-to-MQTT bridges that watch the infra-red sensors of the gates;
- the pixel logic of the vision utility that calibrates the camera and cleans up detected walls.

Everything is stated in Dafny and proved.

- `common.dfy`: bytes and `Option`.
- `calibration_points.dfy` (`src/vision.py`, `load_points` and the precondition of `build_transformation`):
  - The marker image is a sequence of rows of RGBA pixels, scanned row by row.
  - Fully opaque pixels and translucent pixels are collected into two dictionaries keyed by colour. These keep Python's insertion order, and a repeated colour overwrites the position but keeps its place.
  - The points are then paired by colour. An opaque colour with no translucent partner is paired with itself.
  - The proofs show that the two point lists have one entry per distinct opaque colour, and what each entry is. In the first list it is the last opaque position of that colour in the scan. In the second it is the last semi-transparent position of that colour, or the opaque position again when the colour has no semi-transparent pixel. They also show that calibration succeeds exactly when the image holds at least four distinct opaque colours.
- `wall_segments.dfy` (`src/vision.py`, lines 133-150 of `detect_walls`):
  - The Hough segments are held in an array. Each one is normalised in place so that its first corner is the top-left one.
  - Near-duplicates are then dropped greedily, within a tolerance of 100 on every coordinate.
  - The proofs show that the survivors are an ordered subsequence of the input, chosen greedily. They are pairwise separated, and every input segment lies near one of them. Running the whole clean-up, normalisation and de-duplication, a second time on its result changes nothing.
- `bridge_trace.dfy`: the bridges' effects on the broker and the BLE devices, recorded as an ordered log of actions (`ActionLog`).
- `gatehub.dfy` (`ble-gates/gatehub/bridge.py`):
  - It waits for the broker with a bounded number of attempts, then scans for each gate's device. A scanned address matches when it agrees after upper-casing.
  - It watches gate 1 until a notification reports state 1, then gate 2.
  - Notifications are handled one after another, and none arrives after the one that sets the event (see "## Left out"). Under that reading, the proofs show that monitoring stops at the first such notification. A completed gate has published its messages on its own topic, and the last of them is `object_detected`. No action concerning gate 1 follows one concerning gate 2, and gate 2 is only touched after gate 1's device was disconnected.
- `gate1_bridge.dfy` (`ble-gates/gate1/bridge.py`):
  - The single-gate bridge blinks the LED on every notification, then shows red or "blue" and publishes the state.
  - The proofs show the action sequence of one notification, and that over a run the broker sees exactly one message per notification whose handler reached its publish.

The radio, the broker and the clock are inputs to the model:

- `acceptedWrites` says how many LED writes of a notification go through before one raises.
- `scans` lists the device lists of the scans that start before the deadline.
- `connects` says whether connecting succeeds.
- `reachable(k)` says whether attempt `k` to reach the broker succeeds.

Written LED writes include the one that raises: the log records attempts.

Facts about the modelled code that the model keeps:

- Only the first byte value 1 counts as a detection; 0 and 2..255 give `clear` (`ble-gates/gatehub/bridge.py` lines 69-70, `ble-gates/gate1/bridge.py` line 30).
- The hub publishes before it writes the LED (`ble-gates/gatehub/bridge.py` lines 71-72).
- The modelled bridges have no reconnection, device registry, locks or connectivity-status messages.
- A failed connect ends the hub's `main`.

The gate-1 bridge's `BLUE_COLOR` holds the bytes `00 FF 00`, which are green, and the model keeps those bytes.

## Model

| member | source | states |
|---|---|---|
| CalibrationPoints.ScanPositions | src/vision.py:15-18 | every pixel of the scan carries the position it was read from and the colour at that position |
| CalibrationPoints.ScanCovers | src/vision.py:15-18 | every (x, y) inside the image is visited by the scan |
| CalibrationPoints.ScanOrdered | src/vision.py:15-18 | the scan visits pixels in row-major order: y first, then x, strictly increasing |
| CalibrationPoints.StoreMeaning | src/vision.py:26-29 | a dictionary assignment maps the colour to the position, leaves every other entry alone, appends a new colour at the end of the iteration order and keeps an existing colour in its place |
| CalibrationPoints.Collect | src/vision.py:16-29 | collecting one alpha class over the scan yields a well-formed insertion-ordered dictionary |
| CalibrationPoints.CollectKeys | src/vision.py:22-29 | a colour is a key exactly when some pixel of that colour and alpha class was scanned |
| CalibrationPoints.CollectLastWins | src/vision.py:26-29 | the position stored for a colour is that of its last pixel in scan order |
| CalibrationPoints.CollectFirstAppearance | src/vision.py:26-36 | the dictionary's iteration order is the order in which the colours first appear in the scan |
| CalibrationPoints.CollectIgnoresTransparent | src/vision.py:22-23 | pixels with alpha 0 have no effect on either dictionary |
| CalibrationPoints.OpaqueKeys | src/vision.py:11-27 | the opaque dictionary's keys are exactly the colours of the pixels with alpha 255 |
| CalibrationPoints.OpaqueKeyCount | src/vision.py:35-37 | the opaque dictionary holds one entry per distinct opaque colour |
| CalibrationPoints.PairedPointsMeaning | src/vision.py:35-43 | both point lists have one entry per distinct opaque colour; entry i of the first is the last position of its opaque colour, and of the second the last translucent position of that colour, or the opaque one when the colour has no translucent pixel |
| CalibrationPoints.PairedEntry | src/vision.py:36-41 | entry i of the first list is the last opaque position of the i-th opaque colour; entry i of the second is that colour's last translucent position, or the opaque one when it has none |
| CalibrationPoints.LoadPoints | src/vision.py:5-43 | the nested scan loops and the pairing loop return the paired points specified above, two lists of equal length |
| CalibrationPoints.ScanRow | src/vision.py:17-29 | scanning one more row, left to right, leaves both dictionaries as collecting over the scan of all rows up to and including it |
| CalibrationPoints.PairUp | src/vision.py:32-41 | walking the opaque dictionary in insertion order yields the pairing of every opaque colour with its translucent point, or with itself |
| CalibrationPoints.BuildTransformation | src/vision.py:46-48 | the transformation is built, from the given point lists, exactly when there are at least four points; otherwise the assertion fails with its message |
| CalibrationPoints.CalibrationNeedsFourColours | src/vision.py:46-48 | building the transformation from a marker image passes its assertion exactly when the image has at least four distinct opaque colours |
| WallSegments.Normalize | src/vision.py:134-137 | the result is normalised, each coordinate pair is the original pair or the original swapped, and a normalised segment is unchanged |
| WallSegments.NormalizeAll | src/vision.py:133-137 | every segment of the array is replaced in place by its normalised form |
| WallSegments.DeduplicatedIsSubsequence | src/vision.py:139-148 | the kept segments are the input segments at strictly increasing positions |
| WallSegments.DeduplicatedIsGreedy | src/vision.py:140-148 | a segment is kept exactly when no segment kept before it is within the tolerance on all four coordinates |
| WallSegments.CloseSymmetric | src/vision.py:141-146 | the tolerance test does not depend on which segment comes first |
| WallSegments.DeduplicatedProperties | src/vision.py:139-150 | the first segment is kept, every input segment is close to a kept one, and no two kept segments are close |
| WallSegments.DeduplicatedKeepsSeparated | src/vision.py:139-148 | a list with no two close segments passes unchanged |
| WallSegments.DeduplicatedIdempotent | src/vision.py:139-150 | running the de-duplication on its own output changes nothing |
| WallSegments.Deduplicate | src/vision.py:139-150 | the loop computes the greedy de-duplication of the list |
| WallSegments.NormalizeEach | src/vision.py:133-137 | every segment of the list is replaced by a normalised one, and the length is kept |
| WallSegments.NormalizeEachFixed | src/vision.py:133-137 | normalising a list of normalised segments changes nothing |
| WallSegments.DeduplicatedKeepsNormalized | src/vision.py:139-150 | de-duplicating normalised segments keeps only normalised segments |
| WallSegments.CleanUp | src/vision.py:133-150 | segments are normalised in place; the walls kept are the de-duplication of the normalised list, all normalised and pairwise separated |
| WallSegments.CleanUpIdempotent | src/vision.py:133-150 | running normalisation and de-duplication again on the walls they produced gives the same walls |
| GateHub.WaitForBroker | ble-gates/gatehub/bridge.py:27-39 | succeeds exactly when one of the first `timeout` attempts reaches the broker, stopping at the first that does; otherwise all `timeout` attempts fail and the error is raised |
| GateHub.Upper | ble-gates/gatehub/bridge.py:53-62 | upper-casing keeps the length, leaves no lower-case letter and changes each character only in its case |
| GateHub.UpperMatchIgnoresCase | ble-gates/gatehub/bridge.py:53-62 | comparing upper-cased addresses matches exactly the addresses equal up to letter case |
| GateHub.WaitForBleDevice | ble-gates/gatehub/bridge.py:44-57 | returns the first scan showing a device with the address; times out exactly when no scan before the deadline shows it |
| BridgeTrace.Message | ble-gates/gatehub/bridge.py:70 | `object_detected` exactly for state 1, `clear` otherwise; the gate-1 bridge classifies the same way (`ble-gates/gate1/bridge.py` lines 30-37) |
| GateHub.Colour | ble-gates/gatehub/bridge.py:69 | green exactly for state 1, blue otherwise |
| GateHub.HandlerPublishesOnce | ble-gates/gatehub/bridge.py:66-72 | a notification with a payload gives one publish on the gate's topic, then one LED write, both classified by the state |
| GateHub.IrHandler | ble-gates/gatehub/bridge.py:66-76 | appends the handler's actions to the log; the event is set exactly for a state-1 notification whose LED write went through |
| GateHub.Handled | ble-gates/gatehub/bridge.py:74-82 | the notifications handled are those up to and including the first that sets the event, or all of them |
| GateHub.AwaitTrigger | ble-gates/gatehub/bridge.py:80-82 | handles notifications until the event is set; reports whether any notification set it |
| GateHub.Session | ble-gates/gatehub/bridge.py:78-84 | subscribes, handles notifications up to the first trigger, and only after a trigger unsubscribes and disconnects; reports whether a trigger came |
| GateHub.MonitorGate | ble-gates/gatehub/bridge.py:61-85 | no action when the device is not found; only a connect when connecting fails; otherwise subscribe, handle up to the trigger, unsubscribe and disconnect |
| GateHub.HandlerTraceAbout | ble-gates/gatehub/bridge.py:66-72 | every handler action concerns the handler's own gate |
| GateHub.MonitorActionsAbout | ble-gates/gatehub/bridge.py:61-85 | every action of a gate's monitoring concerns that gate only |
| GateHub.HandlerTracePublishes | ble-gates/gatehub/bridge.py:66-72 | handlers publish only on the gate's topic, one message per notification with a payload, and only `clear` when no state is 1 |
| GateHub.TriggeredSessionPublishes | ble-gates/gatehub/bridge.py:74-83 | a triggered session publishes the earlier handlers' messages, then `object_detected` |
| GateHub.MonitorPublishes | ble-gates/gatehub/bridge.py:61-85 | a completed gate published on its own topic only, its last message is `object_detected`, and when every LED write went through all earlier messages are `clear` |
| GateHub.MonitorPublishesSplit | ble-gates/gatehub/bridge.py:61-85 | a completed gate's publishes are those of the handlers before the trigger, followed by one `object_detected` |
| GateHub.NoDetectionBeforeTrigger | ble-gates/gatehub/bridge.py:69-76 | when every LED write goes through, no notification before the trigger carries state 1 |
| GateHub.MonitorEndsWithDisconnect | ble-gates/gatehub/bridge.py:78-85 | a completed monitoring ends with the device's disconnection |
| GateHub.MonitorInSequence | ble-gates/gatehub/bridge.py:97-99 | monitors the first gate and the second only if the first completed, with the outcome of the first gate that does not complete |
| GateHub.GateSequence | ble-gates/gatehub/bridge.py:88-101 | the broker check first, then gate 1, then gate 2 only if gate 1 completed, with the outcome of the first step that does not complete |
| GateHub.GatesDistinct | ble-gates/gatehub/bridge.py:6-16 | the two configured gates share no device and no topic |
| GateHub.InSequence | ble-gates/gatehub/bridge.py:97-99 | gate 1's actions followed, after its disconnection, by gate 2's form a trace in which no gate-1 action follows a gate-2 action |
| GateHub.GatesInSequence | ble-gates/gatehub/bridge.py:88-101 | in every run, nothing concerning gate 1 follows anything concerning gate 2, and gate 2 is touched only after gate 1's device was disconnected |
| Gate1Bridge.Colour | ble-gates/gate1/bridge.py:30-36 | red exactly for state 1, the `BLUE_COLOR` bytes otherwise |
| Gate1Bridge.IrHandler | ble-gates/gate1/bridge.py:28-37 | appends the handler's actions to the log: blink, then colour, then publish, stopping at the first write that raises or at an empty payload |
| Gate1Bridge.HandlerEffects | ble-gates/gate1/bridge.py:28-37 | the first write is always the blink, and there is one publish exactly when the payload is non-empty and the colour write went through |
| Gate1Bridge.HandlerCompleteRun | ble-gates/gate1/bridge.py:28-37 | a complete run writes the blink, then the state's colour, then publishes the state's message on the configured topic as its last action |
| Gate1Bridge.ExpectedMessages | ble-gates/gate1/bridge.py:33-37 | the reference list of broker messages: one publish on the configured topic, classified by `Message`, for each notification that reaches its publish, in order; its contract bounds their number by the number of notifications |
| Gate1Bridge.HandlerTracePublishes | ble-gates/gate1/bridge.py:28-39 | the handlers publish exactly the expected messages, in the order of the notifications |
| Gate1Bridge.ExpectedTopics | ble-gates/gate1/bridge.py:33-37 | every expected message goes to the configured topic |
| Gate1Bridge.Bridge | ble-gates/gate1/bridge.py:23-43 | connect, and on failure print and return; otherwise subscribe and handle every notification; main never raises |
| Gate1Bridge.BridgePublishes | ble-gates/gate1/bridge.py:23-43 | over a run the broker receives exactly the expected messages on the configured topic, and nothing when the connection fails |

## Left out

- Image decoding (`Image.open`, conversion to RGBA) and NumPy arrays. The image is given as rows of RGBA byte quadruples, and the point lists are returned as sequences.
- `build_transformation` beyond its assertion. The homography (`cv2.findHomography`), `transform_point` and all floating-point arithmetic are not modelled. A successful build only records the point pairs.
- `detect_walls` outside lines 133-150. The masking, resizing and Hough transform are OpenCV calls whose output is the segment list. Drawing and writing images are output only.
- Segments are values of four integers, not mutable inner lists. Swapping two coordinates replaces the segment in the array. The list object that `polygons` is rebound to is the returned sequence.
- Broker and radio I/O. The model sees them only through the oracle parameters `reachable` (each `asyncio.open_connection` attempt), `scans` (the results of `BleakScanner.discover`), `connects` (the `BleakClient` connect), `stream` (the notifications received) and `acceptedWrites` (the LED writes of one notification that go through). An MQTT publish never fails in the model and is only recorded as a `Publish` action. Log output (`print`) and sleeps are not modelled.
- GateHub.WaitForBleDevice: the wall-clock deadline of 60 seconds is given as the list of scans that start before it. The model does not measure time.
- GateHub.WaitForBleDevice: every `BleakScanner.discover` call is taken to succeed. In the program an error raised by a scan leaves `monitor_gate` and ends `main` before any connect.
- GateHub.Session: `start_notify` and `stop_notify` are taken to succeed. In the program an error raised by either one leaves the `async with`, which disconnects the device, and then ends `main`. In particular, if gate 1's `stop_notify` raises after a state-1 notification, gate 2 is never scanned, while the model reports gate 1 as done and goes on to gate 2. GateHub.MonitorGate, GateHub.MonitorInSequence and GateHub.GateSequence inherit this assumption.
- GateHub.MonitorGate / GateHub.MonitorInSequence / GateHub.GateSequence: a raising `start_notify` or `stop_notify` is not modelled. In the program it ends `main` after the `async with` disconnects the device, while the model reports that gate as `Done` (or still waiting) and, for gate 1, goes on to gate 2.
- GateHub.Upper / GateHub.UpperMatchIgnoresCase: upper-casing is modelled for ASCII letters only. BLE addresses are written with hexadecimal digits and colons.
- Concurrency of handlers. bleak runs each notification callback as its own task, and the model runs them one after another in arrival order. An exception in one handler ends that handler only.
- GateHub.AwaitTrigger: the model assumes that no notification is delivered between the one that sets the event and the end of `stop_notify`. In the program, notifications arriving in that window still run handlers, and each of them publishes.
- GateHub.MonitorPublishes / GateHub.MonitorPublishesSplit / GateHub.TriggeredSessionPublishes: their claim that the last message is `object_detected` holds only when no notification arrives after the trigger, as assumed for GateHub.AwaitTrigger. In the program a late handler publishes after the trigger, and a handler can publish while an earlier one still awaits its LED write, so `clear` can follow `object_detected`.
- GateHub.AwaitTrigger: `event.wait()` with no notification that sets the event never returns. The model stops after the given notifications and reports that it is still waiting.
- Gate1Bridge.Bridge: the `asyncio.sleep(1E9)` is treated as never ending. The model stops after the given notifications and does not model the disconnect when the sleep would end. A failure of `start_notify` is not modelled separately from a failed connect.
- Creation and connection of the MQTT client at module import (gate 1) or after the broker check (hub). A failure there raises before any gate is touched.
- Reading `BLE_ADDRESS`, `MQTT_TOPIC`, `MQTT_BROKER` and `MQTT_PORT` from the environment. `Gate1Bridge.Config` is a parameter, and its defaults are `DefaultConfig`.
- The other bridge variants and the agent scripts of the repository. The modelled bridges have no reconnection supervisor, device registry, locks or connectivity-status publishes, so the model has none either.

=== FILE: bridge_trace.dfy ===
/**
 * What the BLE-to-MQTT bridges do to the outside world, as an ordered trace of actions:
 * MQTT publishes and BLE operations. The radio and the broker are not modelled beyond
 * the answers they give, which the bridges receive as inputs.
 */
module BridgeTrace {
  import opened Common

  /** One effect of a bridge on the broker or on a BLE device. */
  datatype Action =
    | Publish(topic: string, payload: string)
    | Connect(device: string)
    | StartNotify(device: string, characteristic: string)
    | StopNotify(device: string, characteristic: string)
    | WriteChar(device: string, characteristic: string, value: seq<Byte>)
    | Disconnect(device: string)

  /**
   * One notification from a gate's IR characteristic: its payload, and how many LED
   * writes the link still accepts while the handler runs (the next one raises).
   */
  datatype Notification = Notification(data: seq<Byte>, acceptedWrites: nat)

  /** The two MQTT messages of an IR gate. */
  const ObjectDetected := "object_detected"
  const Clear := "clear"

  /** The message a bridge publishes for an IR state byte: a detection is exactly the value 1. */
  function Message(state: Byte): (m: string)
    ensures m == ObjectDetected <==> state == 1
    ensures m == Clear <==> state != 1
  {
    if state == 1 then ObjectDetected else Clear
  }

  /** The broker and the radio as a bridge sees them: everything done to them so far. */
  class ActionLog {
    var actions: seq<Action>

    constructor ()
      ensures actions == []
    {
      actions := [];
    }

    /** Perform one action; it happens after every earlier one. */
    method Do(a: Action)
      modifies this
      ensures actions == old(actions) + [a]
    {
      actions := actions + [a];
    }
  }

  /**
   * Appending to a trace in two steps or in one gives the same trace. Stated on plain
   * variables so that callers can apply it to large traces without unfolding them.
   */
  lemma AppendAssoc(a: seq<Action>, b: seq<Action>, c: seq<Action>)
    ensures (a + b) + c == a + (b + c)
  {
  }

  /** The publishes of a trace, in order. */
  function Publishes(t: seq<Action>): (r: seq<Action>)
    ensures |r| <= |t|
    ensures forall k :: 0 <= k < |r| ==> r[k].Publish?
  {
    if t == [] then []
    else Publishes(t[..|t| - 1]) + (if t[|t| - 1].Publish? then [t[|t| - 1]] else [])
  }

  /** The characteristic writes of a trace, in order. */
  function Writes(t: seq<Action>): (r: seq<Action>)
    ensures |r| <= |t|
    ensures forall k :: 0 <= k < |r| ==> r[k].WriteChar?
  {
    if t == [] then []
    else Writes(t[..|t| - 1]) + (if t[|t| - 1].WriteChar? then [t[|t| - 1]] else [])
  }

  /** Projecting a trace onto its publishes commutes with running one trace after another. */
  lemma {:induction false} PublishesAppend(a: seq<Action>, b: seq<Action>)
    ensures Publishes(a + b) == Publishes(a) + Publishes(b)
  {
    if b != [] {
      var n := |b| - 1;
      PublishesAppend(a, b[..n]);
      assert (a + b)[..|a + b| - 1] == a + b[..n];
    } else {
      assert a + b == a;
    }
  }
}

=== FILE: calibration_points.dfy ===
/**
 * Calibration-point extraction from an RGBA marker image (load_points in src/vision.py)
 * and the precondition of build_transformation.
 *
 * Every pixel of a given colour marks one calibration point. A fully opaque pixel marks
 * the point's position in the camera image; a semi-transparent pixel of the same RGB
 * marks where that point should land. Fully transparent pixels are background.
 */
module CalibrationPoints {
  import opened Common

  datatype Rgba = Rgba(r: Byte, g: Byte, b: Byte, a: Byte)

  /** The dictionary key load_points builds from a pixel: its colour without alpha. */
  datatype Rgb = Rgb(r: Byte, g: Byte, b: Byte)

  /** An image position, x to the right and y downwards. */
  datatype Point = Point(x: nat, y: nat)

  /** A pixel as the scan visits it: where it is and what it holds. */
  datatype Pixel = Pixel(pos: Point, colour: Rgba)

  /** An RGBA image as its rows, top row first; row y holds the pixels (0, y), (1, y), ... */
  type Image = seq<seq<Rgba>>

  /** How load_points treats a pixel, decided by its alpha alone. */
  datatype Alpha = Transparent | Opaque | Translucent

  function AlphaClass(a: Byte): Alpha
  {
    if a == 0 then Transparent else if a == 255 then Opaque else Translucent
  }

  function Key(c: Rgba): Rgb
  {
    Rgb(c.r, c.g, c.b)
  }

  /** Pixel p is one that the dictionary for class cls records under key k. */
  predicate Hit(p: Pixel, cls: Alpha, k: Rgb)
  {
    AlphaClass(p.colour.a) == cls && Key(p.colour) == k
  }

  // ---------------------------------------------------------------------------
  // The scan order: y outer, x inner
  // ---------------------------------------------------------------------------

  /** Row y of the image, visited left to right. */
  function RowScan(row: seq<Rgba>, y: nat): (s: seq<Pixel>)
    ensures |s| == |row|
    ensures forall x :: 0 <= x < |row| ==> s[x] == Pixel(Point(x, y), row[x])
  {
    seq(|row|, x requires 0 <= x < |row| => Pixel(Point(x, y), row[x]))
  }

  /** Every pixel of the image in the order the nested loops of load_points visit them. */
  function Scan(img: Image): seq<Pixel>
  {
    if img == [] then [] else Scan(img[..|img| - 1]) + RowScan(img[|img| - 1], |img| - 1)
  }

  /** Position p is visited before position q by a row-major scan. */
  predicate Before(p: Point, q: Point)
  {
    p.y < q.y || (p.y == q.y && p.x < q.x)
  }

  predicate InImage(img: Image, p: Point)
  {
    p.y < |img| && p.x < |img[p.y]|
  }

  /** Every pixel the scan visits lies in the image and carries the colour stored at its position. */
  lemma {:induction false} ScanPositions(img: Image)
    ensures forall j :: 0 <= j < |Scan(img)| ==> ScannedAt(img, Scan(img)[j])
  {
    if img != [] {
      var n := |img| - 1;
      var init := img[..n];
      ScanPositions(init);
      var s, s0, row := Scan(img), Scan(init), RowScan(img[n], n);
      assert s == s0 + row;
      forall j | 0 <= j < |s| ensures ScannedAt(img, s[j]) {
        if j < |s0| {
          assert s[j] == s0[j];
          assert ScannedAt(init, s0[j]);
          assert init[s0[j].pos.y] == img[s0[j].pos.y];
        } else {
          assert s[j] == row[j - |s0|];
        }
      }
    }
  }

  /** The scan visits every position of the image. */
  lemma ScanCovers(img: Image)
    ensures forall y, x :: 0 <= y < |img| && 0 <= x < |img[y]| ==> Scanned(img, x, y)
  {
    forall y, x | 0 <= y < |img| && 0 <= x < |img[y]| ensures Scanned(img, x, y) {
      ScanCoversAt(img, x, y);
    }
  }

  /** Position (x, y) holds a pixel the scan visits. */
  ghost predicate Scanned(img: Image, x: nat, y: nat)
    requires y < |img| && x < |img[y]|
  {
    exists j :: 0 <= j < |Scan(img)| && Scan(img)[j] == Pixel(Point(x, y), img[y][x])
  }

  lemma {:induction false} ScanCoversAt(img: Image, x: nat, y: nat)
    requires y < |img| && x < |img[y]|
    ensures Scanned(img, x, y)
  {
    var n := |img| - 1;
    var init := img[..n];
    var s, s0, row := Scan(img), Scan(init), RowScan(img[n], n);
    assert s == s0 + row;
    if y < n {
      assert init[y] == img[y];
      ScanCoversAt(init, x, y);
      var j :| 0 <= j < |s0| && s0[j] == Pixel(Point(x, y), init[y][x]);
      assert s[j] == s0[j];
    } else {
      var j := |s0| + x;
      assert s[j] == row[x] == Pixel(Point(x, y), img[y][x]);
    }
  }

  /** The scan visits positions in strictly increasing row-major order, so it visits each once. */
  lemma {:induction false} ScanOrdered(img: Image)
    ensures forall j, j' :: 0 <= j < j' < |Scan(img)| ==> Before(Scan(img)[j].pos, Scan(img)[j'].pos)
  {
    if img != [] {
      var n := |img| - 1;
      var init := img[..n];
      ScanOrdered(init);
      ScanPositions(init);
      var s, s0, row := Scan(img), Scan(init), RowScan(img[n], n);
      assert s == s0 + row;
      forall j, j' | 0 <= j < j' < |s|
        ensures Before(s[j].pos, s[j'].pos)
      {
        if j' < |s0| {
          assert s[j] == s0[j] && s[j'] == s0[j'];
        } else if j < |s0| {
          assert s[j] == s0[j] && s[j'] == row[j' - |s0|];
          assert ScannedAt(init, s0[j]);
        } else {
          assert s[j] == row[j - |s0|] && s[j'] == row[j' - |s0|];
        }
      }
    }
  }

  /** Pixel p, as visited, lies in the image and holds the colour stored there. */
  predicate ScannedAt(img: Image, p: Pixel)
  {
    InImage(img, p.pos) && p.colour == img[p.pos.y][p.pos.x]
  }

  // ---------------------------------------------------------------------------
  // The two dictionaries
  // ---------------------------------------------------------------------------

  /**
   * A Python dict from colour to position. Python dicts remember insertion order and an
   * overwrite keeps the key where it was, so the dict is its keys in insertion order
   * together with its entries.
   */
  datatype PointDict = PointDict(order: seq<Rgb>, entries: map<Rgb, Point>)
  {
    ghost predicate Valid()
    {
      && (forall i, j :: 0 <= i < j < |order| ==> order[i] != order[j])
      && (forall k :: k in entries <==> k in order)
    }
  }

  const EmptyDict := PointDict([], map[])

  /** `d[k] = p`. */
  function Store(d: PointDict, k: Rgb, p: Point): (r: PointDict)
    requires d.Valid()
    ensures r.Valid()
  {
    if k in d.entries then PointDict(d.order, d.entries[k := p])
    else PointDict(d.order + [k], d.entries[k := p])
  }

  /**
   * A dictionary assignment maps k to p, leaves every other key as it was, and appends k to
   * the iteration order only when it is new: an existing key keeps its place.
   */
  lemma StoreMeaning(d: PointDict, k: Rgb, p: Point)
    requires d.Valid()
    ensures var r := Store(d, k, p);
            && r.entries.Keys == d.entries.Keys + {k} && r.entries[k] == p
            && (forall k' :: k' in d.entries && k' != k ==> r.entries[k'] == d.entries[k'])
            && d.order <= r.order
            && |r.order| == |d.order| + (if k in d.entries then 0 else 1)
  {
  }

  /**
   * The dictionary of class cls after the scan has visited the pixels s: every pixel of
   * that class stores its position under its colour.
   */
  function Collect(s: seq<Pixel>, cls: Alpha): (d: PointDict)
    ensures d.Valid()
  {
    if s == [] then EmptyDict
    else
      var d := Collect(s[..|s| - 1], cls);
      var p := s[|s| - 1];
      if AlphaClass(p.colour.a) == cls then Store(d, Key(p.colour), p.pos) else d
  }

  /** A colour is a key of the dictionary of class cls iff some scanned pixel of that class has it. */
  lemma {:induction false} CollectKeys(s: seq<Pixel>, cls: Alpha)
    ensures forall k :: k in Collect(s, cls).entries <==> exists j :: 0 <= j < |s| && Hit(s[j], cls, k)
  {
    if s != [] {
      var n := |s| - 1;
      var init := s[..n];
      CollectKeys(init, cls);
      var d0 := Collect(init, cls);
      assert Collect(s, cls).entries.Keys
             == d0.entries.Keys + (if AlphaClass(s[n].colour.a) == cls then {Key(s[n].colour)} else {});
      forall k
        ensures k in Collect(s, cls).entries <==> exists j :: 0 <= j < |s| && Hit(s[j], cls, k)
      {
        if k in Collect(s, cls).entries {
          if !Hit(s[n], cls, k) {
            assert k in d0.entries;
            var j :| 0 <= j < |init| && Hit(init[j], cls, k);
            assert s[j] == init[j];
          }
        } else {
          forall j | 0 <= j < |s| ensures !Hit(s[j], cls, k) {
            if j < n {
              assert s[j] == init[j];
            }
          }
        }
      }
    }
  }

  /**
   * Last writer wins: the position recorded for a colour is that of the last pixel of the
   * class with that colour in scan order.
   */
  lemma {:induction false} CollectLastWins(s: seq<Pixel>, cls: Alpha, k: Rgb)
    requires k in Collect(s, cls).entries
    ensures IsLastPosition(s, cls, k, Collect(s, cls).entries[k])
  {
    var n := |s| - 1;
    var init := s[..n];
    if Hit(s[n], cls, k) {
      assert Collect(s, cls).entries[k] == s[n].pos;
      assert IsLastAt(s, cls, k, n);
    } else {
      assert Collect(s, cls).entries[k] == Collect(init, cls).entries[k];
      CollectLastWins(init, cls, k);
      LastPositionExtends(s, cls, k, Collect(init, cls).entries[k]);
    }
  }

  /** s[j] is the last pixel of class cls with colour k in s. */
  ghost predicate IsLastAt(s: seq<Pixel>, cls: Alpha, k: Rgb, j: int)
  {
    0 <= j < |s| && Hit(s[j], cls, k) && forall j' :: j < j' < |s| ==> !Hit(s[j'], cls, k)
  }

  /** Position p is that of the last pixel of class cls with colour k in s. */
  ghost predicate IsLastPosition(s: seq<Pixel>, cls: Alpha, k: Rgb, p: Point)
  {
    exists j :: IsLastAt(s, cls, k, j) && s[j].pos == p
  }

  /** A pixel that is not a hit for k leaves the last position of k where it was. */
  lemma LastPositionExtends(s: seq<Pixel>, cls: Alpha, k: Rgb, p: Point)
    requires s != [] && !Hit(s[|s| - 1], cls, k)
    requires IsLastPosition(s[..|s| - 1], cls, k, p)
    ensures IsLastPosition(s, cls, k, p)
  {
    var init := s[..|s| - 1];
    var j :| IsLastAt(init, cls, k, j) && init[j].pos == p;
    assert s[j] == init[j];
    forall j' | j < j' < |s| ensures !Hit(s[j'], cls, k) {
      if j' < |init| {
        assert s[j'] == init[j'];
      }
    }
    assert IsLastAt(s, cls, k, j);
  }

  /**
   * Keys stay in first-appearance order: wherever the colour of a later key occurs in the
   * class, the colour of every earlier key has already occurred before it.
   */
  lemma {:induction false} CollectFirstAppearance(s: seq<Pixel>, cls: Alpha)
    ensures FirstAppearanceOrder(s, cls, Collect(s, cls).order)
  {
    if s != [] {
      var d := Collect(s, cls);
      CollectFirstAppearance(s[..|s| - 1], cls);
      forall i, j, q | 0 <= i < j < |d.order| && 0 <= q < |s| && Hit(s[q], cls, d.order[j])
        ensures exists p :: 0 <= p < q && Hit(s[p], cls, d.order[i])
      {
        FirstAppearanceStep(s, cls, i, j, q);
      }
    }
  }

  /** One case of the induction step of CollectFirstAppearance. */
  lemma FirstAppearanceStep(s: seq<Pixel>, cls: Alpha, i: nat, j: nat, q: nat)
    requires s != []
    requires FirstAppearanceOrder(s[..|s| - 1], cls, Collect(s[..|s| - 1], cls).order)
    requires i < j < |Collect(s, cls).order| && q < |s| && Hit(s[q], cls, Collect(s, cls).order[j])
    ensures exists p :: 0 <= p < q && Hit(s[p], cls, Collect(s, cls).order[i])
  {
    var n := |s| - 1;
    var init := s[..n];
    var d0, d := Collect(init, cls), Collect(s, cls);
    CollectOrderStep(s, cls);
    assert d.order[i] == d0.order[i];
    if q < n {
      assert s[q] == init[q];
      if j < |d0.order| {
        assert d.order[j] == d0.order[j];
        var p := EarlierHit(init, cls, d0.order, i, j, q);
        assert s[p] == init[p];
      } else {
        // d.order[j] is the key the last pixel added, so no earlier pixel has it.
        NoKeyNoHit(init, cls, d.order[j], q);
        assert false;
      }
    } else {
      KeyHasHit(init, cls, d0.order[i]);
      var p0 :| 0 <= p0 < |init| && Hit(init[p0], cls, d0.order[i]);
      assert s[p0] == init[p0];
    }
  }

  /** Reading FirstAppearanceOrder at one triple: an earlier pixel has the earlier key. */
  lemma EarlierHit(s: seq<Pixel>, cls: Alpha, order: seq<Rgb>, i: nat, j: nat, q: nat) returns (p: nat)
    requires FirstAppearanceOrder(s, cls, order)
    requires i < j < |order| && q < |s| && Hit(s[q], cls, order[j])
    ensures p < q && Hit(s[p], cls, order[i])
  {
    assert Hit(s[q], cls, order[j]);
    assert FirstAppearanceOrder(s, cls, order);
    var r :| 0 <= r < q && Hit(s[r], cls, order[i]);
    p := r;
  }

  /** One more pixel either leaves the key order alone or appends a colour that was not yet a key. */
  lemma CollectOrderStep(s: seq<Pixel>, cls: Alpha)
    requires s != []
    ensures var d0, d := Collect(s[..|s| - 1], cls), Collect(s, cls);
            || d.order == d0.order
            || (d.order == d0.order + [Key(s[|s| - 1].colour)] && Key(s[|s| - 1].colour) !in d0.entries)
  {
  }

  /** Every key of the dictionary was put there by some pixel. */
  lemma KeyHasHit(s: seq<Pixel>, cls: Alpha, k: Rgb)
    requires k in Collect(s, cls).order
    ensures exists j :: 0 <= j < |s| && Hit(s[j], cls, k)
  {
    CollectKeys(s, cls);
  }

  /** A colour that is not a key has no pixel of the class. */
  lemma NoKeyNoHit(s: seq<Pixel>, cls: Alpha, k: Rgb, j: nat)
    requires k !in Collect(s, cls).entries && j < |s|
    ensures !Hit(s[j], cls, k)
  {
    CollectKeys(s, cls);
  }

  /** Wherever order[j] occurs in class cls, every order[i] with i < j has occurred earlier. */
  ghost predicate FirstAppearanceOrder(s: seq<Pixel>, cls: Alpha, order: seq<Rgb>)
  {
    forall i, j, q :: 0 <= i < j < |order| && 0 <= q < |s| && Hit(s[q], cls, order[j]) ==>
      exists p :: 0 <= p < q && Hit(s[p], cls, order[i])
  }

  /** One more scanned pixel: Collect is the loop body of the scan, applied once. */
  lemma CollectSnoc(s: seq<Pixel>, p: Pixel, cls: Alpha)
    ensures Collect(s + [p], cls)
            == if AlphaClass(p.colour.a) == cls then Store(Collect(s, cls), Key(p.colour), p.pos) else Collect(s, cls)
  {
    assert (s + [p])[..|s|] == s;
  }

  /** The pixels of s that are not fully transparent, in scan order. */
  function Visible(s: seq<Pixel>): seq<Pixel>
  {
    if s == [] then []
    else Visible(s[..|s| - 1]) + (if s[|s| - 1].colour.a == 0 then [] else [s[|s| - 1]])
  }

  /** Fully transparent pixels contribute to neither dictionary: removing them changes nothing. */
  lemma {:induction false} CollectIgnoresTransparent(s: seq<Pixel>, cls: Alpha)
    requires cls != Transparent
    ensures Collect(Visible(s), cls) == Collect(s, cls)
  {
    if s != [] {
      var n := |s| - 1;
      CollectIgnoresTransparent(s[..n], cls);
      var v, v0 := Visible(s), Visible(s[..n]);
      if s[n].colour.a != 0 {
        assert v == v0 + [s[n]];
        assert v[..|v| - 1] == v0 && v[|v| - 1] == s[n];
      } else {
        assert v == v0;
      }
    }
  }

  // ---------------------------------------------------------------------------
  // Pairing
  // ---------------------------------------------------------------------------

  /** The distinct RGB values that occur in at least one fully opaque pixel of the image. */
  ghost function OpaqueColours(img: Image): set<Rgb>
  {
    set y, x | 0 <= y < |img| && 0 <= x < |img[y]| && img[y][x].a == 255 :: Key(img[y][x])
  }

  /**
   * What load_points returns: for each opaque colour, in dictionary order, its opaque
   * position, and its semi-transparent position if that colour has one, else the opaque
   * position again.
   */
  function PairedPoints(img: Image): (seq<Point>, seq<Point>)
  {
    Pairing(Collect(Scan(img), Opaque), Collect(Scan(img), Translucent))
  }

  /** The pairing step: every key of a, in order, with its position in a and in b (or a again). */
  function Pairing(a: PointDict, b: PointDict): (seq<Point>, seq<Point>)
    requires a.Valid()
  {
    (seq(|a.order|, i requires 0 <= i < |a.order| => a.entries[a.order[i]]),
     seq(|a.order|, i requires 0 <= i < |a.order| =>
           if a.order[i] in b.entries then b.entries[a.order[i]] else a.entries[a.order[i]]))
  }

  lemma {:induction false} DistinctCard<T>(q: seq<T>)
    requires forall i, j :: 0 <= i < j < |q| ==> q[i] != q[j]
    ensures |set x | x in q| == |q|
  {
    if q != [] {
      var n := |q| - 1;
      DistinctCard(q[..n]);
      assert (set x | x in q) == (set x | x in q[..n]) + {q[n]};
      assert q[n] !in (set x | x in q[..n]);
    }
  }

  /** The keys of the opaque dictionary are exactly the opaque colours of the image. */
  lemma OpaqueKeys(img: Image)
    ensures Collect(Scan(img), Opaque).entries.Keys == OpaqueColours(img)
  {
    var s := Scan(img);
    var a := Collect(s, Opaque);
    ScanPositions(img);
    ScanCovers(img);
    CollectKeys(s, Opaque);
    forall k | k in a.entries ensures k in OpaqueColours(img) {
      var j :| 0 <= j < |s| && Hit(s[j], Opaque, k);
      assert ScannedAt(img, s[j]);
      var p := s[j].pos;
      assert img[p.y][p.x] == s[j].colour;
    }
    forall k | k in OpaqueColours(img) ensures k in a.entries {
      var y, x :| 0 <= y < |img| && 0 <= x < |img[y]| && img[y][x].a == 255 && Key(img[y][x]) == k;
      assert Scanned(img, x, y);
      var j :| 0 <= j < |s| && s[j] == Pixel(Point(x, y), img[y][x]);
      assert Hit(s[j], Opaque, k);
    }
  }

  /** The opaque dictionary has exactly one key per distinct opaque colour of the image. */
  lemma OpaqueKeyCount(img: Image)
    ensures |Collect(Scan(img), Opaque).order| == |OpaqueColours(img)|
  {
    var a := Collect(Scan(img), Opaque);
    OpaqueKeys(img);
    DistinctCard(a.order);
    assert (set x | x in a.order) == a.entries.Keys;
  }

  /**
   * The two outputs of load_points have equal length, one entry per distinct opaque
   * colour; entry i pairs the last opaque pixel of colour k with the last semi-transparent
   * pixel of k, or with itself when k has no semi-transparent pixel. Semi-transparent
   * colours with no opaque pixel appear nowhere.
   */
  lemma PairedPointsMeaning(img: Image)
    ensures var (a, b) := PairedPoints(img);
            && |a| == |b| == |OpaqueColours(img)|
            && forall i :: 0 <= i < |a| ==>
                 exists k :: && k in OpaqueColours(img)
                             && IsLastPosition(Scan(img), Opaque, k, a[i])
                             && (if exists j :: 0 <= j < |Scan(img)| && Hit(Scan(img)[j], Translucent, k)
                                 then IsLastPosition(Scan(img), Translucent, k, b[i])
                                 else b[i] == a[i])
  {
    var s := Scan(img);
    var (a, b) := PairedPoints(img);
    OpaqueKeys(img);
    OpaqueKeyCount(img);
    forall i | 0 <= i < |a|
      ensures exists k :: && k in OpaqueColours(img)
                          && IsLastPosition(s, Opaque, k, a[i])
                          && (if exists j :: 0 <= j < |s| && Hit(s[j], Translucent, k)
                              then IsLastPosition(s, Translucent, k, b[i])
                              else b[i] == a[i])
    {
      PairedEntry(img, i);
    }
  }

  /** Entry i of the paired points belongs to the i-th opaque colour of the dictionary. */
  lemma PairedEntry(img: Image, i: nat)
    requires i < |Collect(Scan(img), Opaque).order|
    ensures var s, k := Scan(img), Collect(Scan(img), Opaque).order[i];
            && k in OpaqueColours(img)
            && IsLastPosition(s, Opaque, k, PairedPoints(img).0[i])
            && (if exists j :: 0 <= j < |s| && Hit(s[j], Translucent, k)
                then IsLastPosition(s, Translucent, k, PairedPoints(img).1[i])
                else PairedPoints(img).1[i] == PairedPoints(img).0[i])
  {
    var s := Scan(img);
    var da, db := Collect(s, Opaque), Collect(s, Translucent);
    var k := da.order[i];
    OpaqueKeys(img);
    CollectKeys(s, Translucent);
    CollectLastWins(s, Opaque, k);
    if k in db.entries {
      CollectLastWins(s, Translucent, k);
    }
  }

  /**
   * load_points without the file decoding: fill the two dictionaries in one row-major
   * pass, then pair every opaque colour with its semi-transparent counterpart.
   */
  method LoadPoints(img: Image) returns (aCoords: seq<Point>, bCoords: seq<Point>)
    ensures (aCoords, bCoords) == PairedPoints(img)
    ensures |aCoords| == |bCoords| == |OpaqueColours(img)|
  {
    var aPoints := EmptyDict;
    var bPoints := EmptyDict;
    var y := 0;
    while y < |img|
      invariant y <= |img|
      invariant aPoints == Collect(Scan(img[..y]), Opaque)
      invariant bPoints == Collect(Scan(img[..y]), Translucent)
    {
      aPoints, bPoints := ScanRow(img, y, aPoints, bPoints);
      y := y + 1;
    }
    assert img[..y] == img;
    aCoords, bCoords := PairUp(aPoints, bPoints);
    OpaqueKeyCount(img);
  }

  /** The inner loop of the scan: one row of pixels, left to right, into the two dictionaries. */
  method ScanRow(img: Image, y: nat, aPoints0: PointDict, bPoints0: PointDict) returns (aPoints: PointDict, bPoints: PointDict)
    requires y < |img|
    requires aPoints0 == Collect(Scan(img[..y]), Opaque)
    requires bPoints0 == Collect(Scan(img[..y]), Translucent)
    ensures aPoints == Collect(Scan(img[..y + 1]), Opaque)
    ensures bPoints == Collect(Scan(img[..y + 1]), Translucent)
  {
    aPoints, bPoints := aPoints0, bPoints0;
    ghost var done := Scan(img[..y]);
    ghost var row := RowScan(img[y], y);
    var x := 0;
    assert done + row[..0] == done;
    while x < |img[y]|
      invariant x <= |img[y]|
      decreases |img[y]| - x
      invariant aPoints == Collect(done + row[..x], Opaque)
      invariant bPoints == Collect(done + row[..x], Translucent)
    {
      var px := img[y][x];
      assert done + row[..x + 1] == (done + row[..x]) + [Pixel(Point(x, y), px)];
      CollectSnoc(done + row[..x], Pixel(Point(x, y), px), Opaque);
      CollectSnoc(done + row[..x], Pixel(Point(x, y), px), Translucent);
      match AlphaClass(px.a) {
        case Transparent =>
        case Opaque =>
          aPoints := Store(aPoints, Key(px), Point(x, y));
        case Translucent =>
          bPoints := Store(bPoints, Key(px), Point(x, y));
      }
      x := x + 1;
    }
    assert img[..y + 1][..y] == img[..y];
    assert row[..x] == row;
  }

  /** The pairing loop: walk the opaque dictionary in order and look each colour up in the other. */
  method PairUp(aPoints: PointDict, bPoints: PointDict) returns (aCoords: seq<Point>, bCoords: seq<Point>)
    requires aPoints.Valid()
    ensures (aCoords, bCoords) == Pairing(aPoints, bPoints)
  {
    aCoords, bCoords := [], [];
    var i := 0;
    while i < |aPoints.order|
      invariant i <= |aPoints.order|
      invariant |aCoords| == |bCoords| == i
      invariant forall j :: 0 <= j < i ==> aCoords[j] == Pairing(aPoints, bPoints).0[j]
      invariant forall j :: 0 <= j < i ==> bCoords[j] == Pairing(aPoints, bPoints).1[j]
    {
      var rgbKey := aPoints.order[i];
      var aCoord := aPoints.entries[rgbKey];
      aCoords := aCoords + [aCoord];
      if rgbKey in bPoints.entries {
        bCoords := bCoords + [bPoints.entries[rgbKey]];
      } else {
        bCoords := bCoords + [aCoord];
      }
      i := i + 1;
    }
    assert aCoords == Pairing(aPoints, bPoints).0;
    assert bCoords == Pairing(aPoints, bPoints).1;
  }

  // ---------------------------------------------------------------------------
  // build_transformation
  // ---------------------------------------------------------------------------

  /** The outcome of build_transformation; the homography itself is floating point and not modelled. */
  datatype Transformation = Homography(src: seq<Point>, dst: seq<Point>) | AssertionError(message: string)

  /** build_transformation asserts at least four point pairs before fitting a homography. */
  function BuildTransformation(aPoints: seq<Point>, bPoints: seq<Point>): (t: Transformation)
    ensures t.Homography? <==> |aPoints| >= 4
    ensures t.Homography? ==> t.src == aPoints && t.dst == bPoints
    ensures t.AssertionError? ==> t.message == "Need at least 4 point pairs"
  {
    if |aPoints| >= 4 then Homography(aPoints, bPoints) else AssertionError("Need at least 4 point pairs")
  }

  /**
   * Calibrating from a marker image succeeds iff the image holds at least four distinct
   * fully opaque colours; semi-transparent pixels never add a pair.
   */
  lemma CalibrationNeedsFourColours(img: Image)
    ensures BuildTransformation(PairedPoints(img).0, PairedPoints(img).1).Homography?
            <==> |OpaqueColours(img)| >= 4
  {
    PairedPointsMeaning(img);
  }
}

=== FILE: common.dfy ===
/** Small shared vocabulary of the model. */
module Common {

  /** An unsigned 8-bit value: a channel of an RGBA pixel, a byte of a BLE payload. */
  type Byte = x: int | 0 <= x < 256

  datatype Option<T> = None | Some(value: T)
}

=== FILE: gate1_bridge.dfy ===
/**
 * The single-gate bridge (ble-gates/gate1/bridge.py): connect to one Thingy, subscribe to
 * its IR characteristic, and for every notification blink the LED, set it red or blue
 * and publish the state on one MQTT topic. Any error of the connection is printed and
 * ends the program quietly.
 */
module Gate1Bridge {
  import opened Common
  import opened BridgeTrace

  /** The device address and MQTT topic, read from the environment with these defaults. */
  datatype Config = Config(address: string, topic: string)

  const DefaultConfig := Config("DF:CB:A0:71:A8:6C", "gate/ir")

  const IrCharUuid := "794f1fe3-9be8-4875-83ba-731e1037a883"
  const LedCharUuid := "794f1fe3-9be8-4875-83ba-731e1037a882"
  const RedColor: seq<Byte> := [0xFF, 0x00, 0x00]
  /** Named blue in the program, but the bytes are those of green. */
  const BlueColor: seq<Byte> := [0x00, 0xFF, 0x00]
  const GreenBlink: seq<Byte> := [0x03, 0x00, 0xFF, 0x00, 0xFF, 0x32]

  /** The LED colour for an IR state byte: red for a detection (exactly the value 1). */
  function Colour(state: Byte): (c: seq<Byte>)
    ensures c == RedColor <==> state == 1
    ensures c == BlueColor <==> state != 1
  {
    if state == 1 then RedColor else BlueColor
  }

  /**
   * What ir_handler does for one notification. It first writes the blink pattern; if that
   * write raises, nothing else happens. Reading the state of an empty payload raises next.
   * Then it writes the colour and, if that write did not raise, publishes the message.
   */
  function HandlerActions(cfg: Config, n: Notification): seq<Action>
  {
    var blink := WriteChar(cfg.address, LedCharUuid, GreenBlink);
    if n.acceptedWrites == 0 || |n.data| == 0 then [blink]
    else
      var colour := WriteChar(cfg.address, LedCharUuid, Colour(n.data[0]));
      if n.acceptedWrites == 1 then [blink, colour]
      else [blink, colour, Publish(cfg.topic, Message(n.data[0]))]
  }

  /** The handler reaches its publish. */
  predicate ReachesPublish(n: Notification)
  {
    |n.data| > 0 && n.acceptedWrites >= 2
  }

  /**
   * ir_handler, run to completion or to the exception that ends it (the exception stays in
   * the handler's own task and never reaches main).
   */
  method IrHandler(log: ActionLog, cfg: Config, n: Notification)
    modifies log
    ensures log.actions == old(log.actions) + HandlerActions(cfg, n)
  {
    log.Do(WriteChar(cfg.address, LedCharUuid, GreenBlink));
    if n.acceptedWrites == 0 {
      return;
    }
    if |n.data| == 0 {
      return;
    }
    if n.data[0] == 1 {
      log.Do(WriteChar(cfg.address, LedCharUuid, RedColor));
      if n.acceptedWrites == 1 {
        return;
      }
      log.Do(Publish(cfg.topic, ObjectDetected));
    } else {
      log.Do(WriteChar(cfg.address, LedCharUuid, BlueColor));
      if n.acceptedWrites == 1 {
        return;
      }
      log.Do(Publish(cfg.topic, Clear));
    }
  }

  /**
   * Every notification starts with the blink, and the handler publishes at most once:
   * exactly when its payload is non-empty and the colour write went through.
   */
  lemma HandlerEffects(cfg: Config, n: Notification)
    ensures var t := HandlerActions(cfg, n);
            && |Writes(t)| > 0
            && Writes(t)[0] == WriteChar(cfg.address, LedCharUuid, GreenBlink)
            && |Publishes(t)| == (if ReachesPublish(n) then 1 else 0)
  {
    var blink := WriteChar(cfg.address, LedCharUuid, GreenBlink);
    Single(blink);
    if ReachesPublish(n) {
      HandlerCompleteRun(cfg, n);
    } else if n.acceptedWrites == 1 && |n.data| > 0 {
      var colour := WriteChar(cfg.address, LedCharUuid, Colour(n.data[0]));
      assert HandlerActions(cfg, n) == [blink, colour];
      assert [blink, colour][..1] == [blink];
    } else {
      assert HandlerActions(cfg, n) == [blink];
    }
  }

  /**
   * A handler that runs to the end writes the blink, then the colour of the state, then
   * publishes the state's message on the configured topic, as its last action.
   */
  lemma HandlerCompleteRun(cfg: Config, n: Notification)
    requires ReachesPublish(n)
    ensures var t := HandlerActions(cfg, n);
            && Publishes(t) == [Publish(cfg.topic, if n.data[0] == 1 then ObjectDetected else Clear)]
            && Writes(t) == [WriteChar(cfg.address, LedCharUuid, GreenBlink),
                             WriteChar(cfg.address, LedCharUuid, if n.data[0] == 1 then RedColor else BlueColor)]
            && t[|t| - 1].Publish?
  {
    var blink := WriteChar(cfg.address, LedCharUuid, GreenBlink);
    var colour := WriteChar(cfg.address, LedCharUuid, Colour(n.data[0]));
    var message := Publish(cfg.topic, Message(n.data[0]));
    var t := [blink, colour, message];
    assert HandlerActions(cfg, n) == t;
    assert t[..2] == [blink, colour];
    assert [blink, colour][..1] == [blink];
    Single(blink);
    assert Writes([blink, colour]) == [blink, colour];
    assert Publishes([blink, colour]) == [];
  }

  /** The projections of a one-action trace. */
  lemma Single(a: Action)
    ensures Publishes([a]) == (if a.Publish? then [a] else [])
    ensures Writes([a]) == (if a.WriteChar? then [a] else [])
  {
    assert [a][..0] == [];
  }

  /** Everything the handler does for the notifications ns, one after another. */
  function HandlerTrace(cfg: Config, ns: seq<Notification>): seq<Action>
  {
    if ns == [] then [] else HandlerTrace(cfg, ns[..|ns| - 1]) + HandlerActions(cfg, ns[|ns| - 1])
  }

  /**
   * The messages the broker should see for the notifications ns: one per notification
   * whose handler gets to its publish, classified by the state byte.
   */
  function ExpectedMessages(cfg: Config, ns: seq<Notification>): (r: seq<Action>)
    ensures |r| <= |ns|
  {
    if ns == [] then []
    else
      var n := ns[|ns| - 1];
      ExpectedMessages(cfg, ns[..|ns| - 1])
      + (if ReachesPublish(n) then [Publish(cfg.topic, Message(n.data[0]))] else [])
  }

  /** The handlers publish exactly the expected messages, in the order of the notifications. */
  lemma {:induction false} HandlerTracePublishes(cfg: Config, ns: seq<Notification>)
    ensures Publishes(HandlerTrace(cfg, ns)) == ExpectedMessages(cfg, ns)
  {
    if ns != [] {
      var n := ns[|ns| - 1];
      HandlerTracePublishes(cfg, ns[..|ns| - 1]);
      PublishesAppend(HandlerTrace(cfg, ns[..|ns| - 1]), HandlerActions(cfg, n));
      HandlerEffects(cfg, n);
      if ReachesPublish(n) {
        HandlerCompleteRun(cfg, n);
      }
    }
  }

  datatype Gate1Exit =
    | ErrorPrinted   // connecting or subscribing raised; the error was printed and main returned
    | Listening      // every notification so far was handled; main is still asleep

  /** The trace of main for a connection attempt that succeeds or not, and the notifications received. */
  function BridgeActions(cfg: Config, connects: bool, stream: seq<Notification>): seq<Action>
  {
    [Connect(cfg.address)]
    + (if connects then [StartNotify(cfg.address, IrCharUuid)] + HandlerTrace(cfg, stream) else [])
  }

  /**
   * The bridge's main: connect, subscribe, then sleep while the handler runs for each notification.
   * Every exception of the connection is caught and printed, so main never raises.
   */
  method Bridge(log: ActionLog, cfg: Config, connects: bool, stream: seq<Notification>) returns (exit: Gate1Exit)
    modifies log
    ensures log.actions == old(log.actions) + BridgeActions(cfg, connects, stream)
    ensures exit == (if connects then Listening else ErrorPrinted)
  {
    log.Do(Connect(cfg.address));
    if !connects {
      return ErrorPrinted;
    }
    log.Do(StartNotify(cfg.address, IrCharUuid));
    ghost var start := log.actions;
    var i := 0;
    while i < |stream|
      invariant i <= |stream|
      invariant log.actions == start + HandlerTrace(cfg, stream[..i])
    {
      assert stream[..i + 1][..i] == stream[..i];
      IrHandler(log, cfg, stream[i]);
      i := i + 1;
    }
    assert stream[..i] == stream;
    return Listening;
  }

  /**
   * Over a whole run the broker receives exactly the expected messages, all on the
   * configured topic; with no connection it receives nothing.
   */
  lemma BridgePublishes(cfg: Config, connects: bool, stream: seq<Notification>)
    ensures Publishes(BridgeActions(cfg, connects, stream)) == (if connects then ExpectedMessages(cfg, stream) else [])
    ensures forall k :: 0 <= k < |Publishes(BridgeActions(cfg, connects, stream))| ==>
              Publishes(BridgeActions(cfg, connects, stream))[k].topic == cfg.topic
  {
    var head := [Connect(cfg.address)] + (if connects then [StartNotify(cfg.address, IrCharUuid)] else []);
    var rest := if connects then HandlerTrace(cfg, stream) else [];
    assert BridgeActions(cfg, connects, stream) == head + rest;
    PublishesAppend(head, rest);
    assert Publishes(head) == [] by {
      assert head[..1] == [Connect(cfg.address)];
      assert head[..0] == [];
    }
    HandlerTracePublishes(cfg, stream);
    ExpectedTopics(cfg, stream);
  }

  /** Every expected message goes to the configured topic. */
  lemma {:induction false} ExpectedTopics(cfg: Config, ns: seq<Notification>)
    ensures forall k :: 0 <= k < |ExpectedMessages(cfg, ns)| ==>
              ExpectedMessages(cfg, ns)[k].Publish? && ExpectedMessages(cfg, ns)[k].topic == cfg.topic
  {
    if ns != [] {
      ExpectedTopics(cfg, ns[..|ns| - 1]);
    }
  }
}

=== FILE: gatehub.dfy ===
/**
 * The two-gate hub bridge (ble-gates/gatehub/bridge.py): wait for the MQTT broker, then
 * watch gate 1 until its IR sensor reports an object, then gate 2 likewise. Each
 * notification is published on the gate's topic and echoed on the gate's LED.
 */
module GateHub {
  import opened Common
  import opened BridgeTrace

  /** A statically configured gate: its name, BLE address and MQTT topic. */
  datatype Gate = Gate(name: string, address: string, topic: string)

  const Gate1 := Gate("gate1", "DF:66:32:49:C8:1A", "gate1/ir")
  const Gate2 := Gate("gate2", "D0:31:D0:79:F2:F3", "gate2/ir")

  const IrCharUuid := "794f1fe3-9be8-4875-83ba-731e1037a883"
  const LedCharUuid := "794f1fe3-9be8-4875-83ba-731e1037a882"
  const GreenColor: seq<Byte> := [0x00, 0xFF, 0x00]
  const BlueColor: seq<Byte> := [0x00, 0x00, 0xFF]

  /** Default number of connection attempts of wait_for_broker. */
  const BrokerAttempts := 30

  // ---------------------------------------------------------------------------
  // wait_for_broker
  // ---------------------------------------------------------------------------

  /**
   * Try to open a TCP connection to the broker up to `timeout` times; reachable(k) is
   * whether attempt k succeeds. Returns whether the broker was reached (false is the
   * RuntimeError) and how many attempts were made.
   */
  method WaitForBroker(reachable: nat -> bool, timeout: int) returns (ok: bool, attempts: nat)
    ensures ok <==> exists k: nat :: k < timeout && reachable(k)
    ensures ok ==> 0 < attempts <= timeout && reachable(attempts - 1)
    ensures forall k: nat :: k < attempts - 1 ==> !reachable(k)
    ensures !ok ==> attempts == (if timeout < 0 then 0 else timeout)
  {
    attempts := 0;
    while attempts < timeout
      invariant timeout >= 0 ==> attempts <= timeout
      invariant timeout < 0 ==> attempts == 0
      invariant forall k: nat :: k < attempts ==> !reachable(k)
    {
      if reachable(attempts) {
        return true, attempts + 1;
      }
      attempts := attempts + 1;
    }
    return false, attempts;
  }

  // ---------------------------------------------------------------------------
  // Address matching and wait_for_ble_device
  // ---------------------------------------------------------------------------

  function UpperChar(c: char): char
  {
    if 'a' <= c <= 'z' then (c as int - 32) as char else c
  }

  /**
   * `str.upper()` on the ASCII letters a BLE address is written with: no lower-case letter
   * is left, and every character is the original one up to its case.
   */
  function Upper(s: string): (r: string)
    ensures |r| == |s|
    ensures forall i :: 0 <= i < |r| ==> !('a' <= r[i] <= 'z')
    ensures forall i :: 0 <= i < |s| ==> SameIgnoringCase(s[i], r[i])
  {
    seq(|s|, i requires 0 <= i < |s| => UpperChar(s[i]))
  }

  /** c and d are the same character up to the case of a letter. */
  predicate SameIgnoringCase(c: char, d: char)
  {
    || c == d
    || ('a' <= c <= 'z' && d as int == c as int - 32)
    || ('a' <= d <= 'z' && c as int == d as int - 32)
  }

  /**
   * Upper-casing both sides makes the address test case-insensitive: two addresses match
   * exactly when they agree letter by letter up to case.
   */
  lemma UpperMatchIgnoresCase(scanned: string, configured: string)
    ensures Upper(scanned) == Upper(configured)
            <==> |scanned| == |configured|
                 && forall i :: 0 <= i < |scanned| ==> SameIgnoringCase(scanned[i], configured[i])
  {
    if |scanned| == |configured| {
      if Upper(scanned) == Upper(configured) {
        forall i | 0 <= i < |scanned| ensures SameIgnoringCase(scanned[i], configured[i]) {
          assert Upper(scanned)[i] == Upper(configured)[i];
        }
      }
      if forall i :: 0 <= i < |scanned| ==> SameIgnoringCase(scanned[i], configured[i]) {
        forall i | 0 <= i < |scanned| ensures Upper(scanned)[i] == Upper(configured)[i] {
          assert SameIgnoringCase(scanned[i], configured[i]);
        }
      }
    } else {
      assert |Upper(scanned)| != |Upper(configured)|;
    }
  }

  /** Some device of one scan has the (already upper-cased) address. */
  predicate Sighted(address: string, devices: seq<string>)
  {
    exists j | 0 <= j < |devices| :: Upper(devices[j]) == address
  }

  /**
   * Scan until a device with the address shows up. scans holds the devices each scan
   * reports, one entry per scan that starts before the deadline; when none of them shows
   * the device, the deadline passes (the TimeoutError, here None). Otherwise the result
   * is the first scan that shows it.
   */
  method WaitForBleDevice(address: string, scans: seq<seq<string>>) returns (found: Option<nat>)
    ensures found.Some? ==> found.value < |scans| && Sighted(address, scans[found.value])
    ensures found.Some? ==> forall r :: 0 <= r < found.value ==> !Sighted(address, scans[r])
    ensures found.None? ==> forall r :: 0 <= r < |scans| ==> !Sighted(address, scans[r])
  {
    var round := 0;
    while round < |scans|
      invariant round <= |scans|
      invariant forall r :: 0 <= r < round ==> !Sighted(address, scans[r])
    {
      var devices := scans[round];
      var i := 0;
      while i < |devices|
        invariant i <= |devices|
        invariant forall j :: 0 <= j < i ==> Upper(devices[j]) != address
      {
        if Upper(devices[i]) == address {
          return Some(round);
        }
        i := i + 1;
      }
      round := round + 1;
    }
    return None;
  }

  /** Some scan before the deadline shows the device. */
  predicate Discovered(address: string, scans: seq<seq<string>>)
  {
    exists r | 0 <= r < |scans| :: Sighted(address, scans[r])
  }

  // ---------------------------------------------------------------------------
  // ir_handler
  // ---------------------------------------------------------------------------

  /** The LED colour for an IR state byte: green for a detection, blue otherwise. */
  function Colour(state: Byte): (c: seq<Byte>)
    ensures c == GreenColor <==> state == 1
    ensures c == BlueColor <==> state != 1
  {
    if state == 1 then GreenColor else BlueColor
  }

  /** The BLE address monitor_gate connects to. */
  function Device(gate: Gate): string
  {
    Upper(gate.address)
  }

  /**
   * What ir_handler does for one notification: publish the classified message on the
   * gate's topic, then write the matching colour to the LED. With an empty payload,
   * reading the first byte raises before anything happens.
   */
  function HandlerActions(gate: Gate, n: Notification): seq<Action>
  {
    if |n.data| == 0 then []
    else [Publish(gate.topic, Message(n.data[0])), WriteChar(Device(gate), LedCharUuid, Colour(n.data[0]))]
  }

  /** The handler gets as far as event.set(): a detection whose LED write did not raise. */
  predicate SetsEvent(n: Notification)
  {
    |n.data| > 0 && n.data[0] == 1 && n.acceptedWrites > 0
  }

  /**
   * Every notification with a payload gives exactly one publish, on the gate's own topic,
   * issued before the one LED write; object_detected and green exactly for state 1.
   */
  lemma HandlerPublishesOnce(gate: Gate, n: Notification)
    requires |n.data| > 0
    ensures var t := HandlerActions(gate, n);
            && Publishes(t) == [Publish(gate.topic, if n.data[0] == 1 then ObjectDetected else Clear)]
            && Writes(t) == [WriteChar(Device(gate), LedCharUuid, if n.data[0] == 1 then GreenColor else BlueColor)]
            && t[0].Publish? && t[|t| - 1].WriteChar?
  {
    var t := HandlerActions(gate, n);
    assert t[..1] == [t[0]];
    assert t[..0] == [];
  }

  /**
   * ir_handler. Returns whether it set the gate's event. A raised exception (no payload,
   * or the LED write failing) ends this handler only: bleak runs it as a separate task.
   */
  method IrHandler(log: ActionLog, gate: Gate, n: Notification) returns (setEvent: bool)
    modifies log
    ensures log.actions == old(log.actions) + HandlerActions(gate, n)
    ensures setEvent == SetsEvent(n)
  {
    if |n.data| == 0 {
      return false;
    }
    var state := n.data[0];
    var color := if state == 1 then GreenColor else BlueColor;
    var message := if state == 1 then ObjectDetected else Clear;
    log.Do(Publish(gate.topic, message));
    log.Do(WriteChar(Device(gate), LedCharUuid, color));
    if n.acceptedWrites == 0 {
      return false;
    }
    setEvent := state == 1;
  }

  // ---------------------------------------------------------------------------
  // monitor_gate
  // ---------------------------------------------------------------------------

  /** What the radio does during one monitor_gate: scan results, whether connecting works, notifications. */
  datatype GateWorld = GateWorld(scans: seq<seq<string>>, connects: bool, stream: seq<Notification>)

  datatype MonitorOutcome =
    | Done            // the gate was triggered; monitor_gate returned
    | StillWaiting    // no notification so far set the event; event.wait() has not returned
    | NotFound        // wait_for_ble_device raised TimeoutError
    | ConnectFailed   // BleakClient raised on connect

  predicate Triggered(stream: seq<Notification>)
  {
    exists j | 0 <= j < |stream| :: SetsEvent(stream[j])
  }

  /**
   * How many notifications monitor_gate handles: up to and including the first that sets
   * the event, or all of them when none does.
   */
  function Handled(stream: seq<Notification>): (h: nat)
    ensures h <= |stream|
    ensures forall j :: 0 <= j < h - 1 ==> !SetsEvent(stream[j])
    ensures Triggered(stream) ==> 0 < h && SetsEvent(stream[h - 1])
    ensures !Triggered(stream) ==> h == |stream|
  {
    if stream == [] then 0
    else if SetsEvent(stream[0]) then 1
    else
      assert Triggered(stream) ==> Triggered(stream[1..]) by {
        if Triggered(stream) {
          var j :| 0 <= j < |stream| && SetsEvent(stream[j]);
          assert stream[1..][j - 1] == stream[j];
        }
      }
      1 + Handled(stream[1..])
  }

  /** Everything the handler does for the notifications ns, one after another. */
  function HandlerTrace(gate: Gate, ns: seq<Notification>): seq<Action>
  {
    if ns == [] then [] else HandlerTrace(gate, ns[..|ns| - 1]) + HandlerActions(gate, ns[|ns| - 1])
  }

  function MonitorOutcomeOf(gate: Gate, w: GateWorld): MonitorOutcome
  {
    if !Discovered(Device(gate), w.scans) then NotFound
    else if !w.connects then ConnectFailed
    else if Triggered(w.stream) then Done
    else StillWaiting
  }

  /** Everything the handler does for ns followed by n is its trace for ns, then n's actions. */
  lemma HandlerTraceSnoc(gate: Gate, ns: seq<Notification>, n: Notification)
    ensures HandlerTrace(gate, ns + [n]) == HandlerTrace(gate, ns) + HandlerActions(gate, n)
  {
    assert (ns + [n])[..|ns|] == ns;
  }

  /** Handling one more notification of the stream extends the trace by that handler's actions. */
  lemma HandlerTracePrefix(gate: Gate, stream: seq<Notification>, i: nat)
    requires i < |stream|
    ensures HandlerTrace(gate, stream[..i + 1]) == HandlerTrace(gate, stream[..i]) + HandlerActions(gate, stream[i])
  {
    assert stream[..i + 1] == stream[..i] + [stream[i]];
    HandlerTraceSnoc(gate, stream[..i], stream[i]);
  }

  /** After connecting: subscribe, handle notifications, and on a trigger unsubscribe and disconnect. */
  function SessionActions(gate: Gate, stream: seq<Notification>): seq<Action>
  {
    [StartNotify(Device(gate), IrCharUuid)]
    + HandlerTrace(gate, stream[..Handled(stream)])
    + (if Triggered(stream) then [StopNotify(Device(gate), IrCharUuid), Disconnect(Device(gate))] else [])
  }

  /** The trace of one monitor_gate call. */
  function MonitorActions(gate: Gate, w: GateWorld): seq<Action>
  {
    if !Discovered(Device(gate), w.scans) then []
    else [Connect(Device(gate))] + (if w.connects then SessionActions(gate, w.stream) else [])
  }

  /**
   * The body of `async with client`: feed notifications to the handler until one of them
   * sets the event. Returns whether one did.
   */
  method AwaitTrigger(log: ActionLog, gate: Gate, stream: seq<Notification>) returns (triggered: bool)
    modifies log
    ensures log.actions == old(log.actions) + HandlerTrace(gate, stream[..Handled(stream)])
    ensures triggered == Triggered(stream)
  {
    ghost var start := log.actions;
    var i := 0;
    triggered := false;
    while i < |stream| && !triggered
      invariant i <= |stream|
      invariant log.actions == start + HandlerTrace(gate, stream[..i])
      invariant forall j :: 0 <= j < i - 1 ==> !SetsEvent(stream[j])
      invariant triggered <==> 0 < i && SetsEvent(stream[i - 1])
    {
      HandlerTracePrefix(gate, stream, i);
      triggered := IrHandler(log, gate, stream[i]);
      i := i + 1;
    }
    HandledAtExit(stream, i, triggered);
  }

  /** Where the handling loop stops: after the first notification that sets the event, or at the end. */
  lemma HandledAtExit(stream: seq<Notification>, i: nat, triggered: bool)
    requires i <= |stream|
    requires !(i < |stream| && !triggered)
    requires forall j :: 0 <= j < i - 1 ==> !SetsEvent(stream[j])
    requires triggered <==> 0 < i && SetsEvent(stream[i - 1])
    ensures i == Handled(stream)
    ensures triggered == Triggered(stream)
  {
    var h := Handled(stream);
    if triggered {
      assert Triggered(stream);
    } else {
      assert forall j :: 0 <= j < i ==> !SetsEvent(stream[j]);
    }
  }

  /**
   * monitor_gate: find the device, connect, handle notifications until one sets the
   * event, then stop notifications and disconnect.
   */
  method MonitorGate(log: ActionLog, gate: Gate, w: GateWorld) returns (outcome: MonitorOutcome)
    modifies log
    ensures log.actions == old(log.actions) + MonitorActions(gate, w)
    ensures outcome == MonitorOutcomeOf(gate, w)
  {
    var device := Device(gate);
    var found := WaitForBleDevice(device, w.scans);
    if found.None? {
      return NotFound;
    }
    assert Discovered(device, w.scans);
    ghost var start := log.actions;
    log.Do(Connect(device));
    if !w.connects {
      return ConnectFailed;
    }
    var triggered := Session(log, gate, w.stream);
    AppendAssoc(start, [Connect(device)], SessionActions(gate, w.stream));
    outcome := if triggered then Done else StillWaiting;
  }

  /** The body of `async with client`: subscribe, wait for the trigger, unsubscribe and leave. */
  method Session(log: ActionLog, gate: Gate, stream: seq<Notification>) returns (triggered: bool)
    modifies log
    ensures log.actions == old(log.actions) + SessionActions(gate, stream)
    ensures triggered == Triggered(stream)
  {
    var device := Device(gate);
    ghost var start := log.actions;
    ghost var subscribe := [StartNotify(device, IrCharUuid)];
    log.Do(StartNotify(device, IrCharUuid));
    triggered := AwaitTrigger(log, gate, stream);
    ghost var trace := HandlerTrace(gate, stream[..Handled(stream)]);
    AppendAssoc(start, subscribe, trace);
    if !triggered {
      assert SessionActions(gate, stream) == subscribe + trace + [];
      return;
    }
    ghost var middle := log.actions;
    log.Do(StopNotify(device, IrCharUuid));
    log.Do(Disconnect(device));
    ghost var leave := [StopNotify(device, IrCharUuid), Disconnect(device)];
    AppendAssoc(middle, [StopNotify(device, IrCharUuid)], [Disconnect(device)]);
    AppendAssoc(start, subscribe + trace, leave);
  }

  /** The action concerns this gate: its topic or its device. */
  predicate About(a: Action, gate: Gate)
  {
    match a
    case Publish(topic, _) => topic == gate.topic
    case Connect(d) => d == Device(gate)
    case StartNotify(d, _) => d == Device(gate)
    case StopNotify(d, _) => d == Device(gate)
    case WriteChar(d, _, _) => d == Device(gate)
    case Disconnect(d) => d == Device(gate)
  }

  lemma {:induction false} HandlerTraceAbout(gate: Gate, ns: seq<Notification>)
    ensures forall k :: 0 <= k < |HandlerTrace(gate, ns)| ==> About(HandlerTrace(gate, ns)[k], gate)
  {
    if ns != [] {
      HandlerTraceAbout(gate, ns[..|ns| - 1]);
    }
  }

  /** Everything one monitor_gate call does concerns its own gate only. */
  lemma MonitorActionsAbout(gate: Gate, w: GateWorld)
    ensures forall k :: 0 <= k < |MonitorActions(gate, w)| ==> About(MonitorActions(gate, w)[k], gate)
  {
    HandlerTraceAbout(gate, w.stream[..Handled(w.stream)]);
  }

  /**
   * The handlers for ns publish only on the gate's topic, one message per notification
   * with a payload, and only `clear` when none of them carries the state 1.
   */
  lemma {:induction false} HandlerTracePublishes(gate: Gate, ns: seq<Notification>)
    ensures forall k :: 0 <= k < |Publishes(HandlerTrace(gate, ns))| ==>
              Publishes(HandlerTrace(gate, ns))[k].topic == gate.topic
    ensures (forall j :: 0 <= j < |ns| ==> |ns[j].data| > 0) ==> |Publishes(HandlerTrace(gate, ns))| == |ns|
    ensures (forall j :: 0 <= j < |ns| ==> |ns[j].data| == 0 || ns[j].data[0] != 1) ==>
              forall k :: 0 <= k < |Publishes(HandlerTrace(gate, ns))| ==> Publishes(HandlerTrace(gate, ns))[k].payload == Clear
  {
    if ns != [] {
      var n := |ns| - 1;
      var init := ns[..n];
      HandlerTracePublishes(gate, init);
      PublishesAppend(HandlerTrace(gate, init), HandlerActions(gate, ns[n]));
      if |ns[n].data| > 0 {
        HandlerPublishesOnce(gate, ns[n]);
      }
      assert forall j :: 0 <= j < n ==> init[j] == ns[j];
    }
  }

  /** A trace without publishes projects to no publishes. */
  lemma {:induction false} NoPublishes(t: seq<Action>)
    requires forall k :: 0 <= k < |t| ==> !t[k].Publish?
    ensures Publishes(t) == []
  {
    if t != [] {
      NoPublishes(t[..|t| - 1]);
    }
  }

  /**
   * A triggered session publishes what the handlers before the trigger published, then
   * object_detected on the gate's topic.
   */
  lemma TriggeredSessionPublishes(gate: Gate, stream: seq<Notification>)
    requires Triggered(stream)
    ensures Publishes(SessionActions(gate, stream))
            == Publishes(HandlerTrace(gate, stream[..Handled(stream) - 1])) + [Publish(gate.topic, ObjectDetected)]
  {
    var h := Handled(stream);
    var before, last := stream[..h - 1], stream[h - 1];
    assert stream[..h] == before + [last];
    HandlerTraceSnoc(gate, before, last);
    var head := [StartNotify(Device(gate), IrCharUuid)];
    var tail := [StopNotify(Device(gate), IrCharUuid), Disconnect(Device(gate))];
    var mid := HandlerTrace(gate, before);
    var own := HandlerActions(gate, last);
    assert SessionActions(gate, stream) == head + (mid + own) + tail;
    PublishesAppend(head + (mid + own), tail);
    PublishesAppend(head, mid + own);
    PublishesAppend(mid, own);
    NoPublishes(head);
    NoPublishes(tail);
    HandlerPublishesOnce(gate, last);
  }

  /**
   * A gate whose monitoring completes has published a run of messages on its own topic
   * that ends with object_detected; when every LED write goes through, all the earlier
   * messages are `clear`.
   */
  lemma MonitorPublishes(gate: Gate, w: GateWorld)
    requires MonitorOutcomeOf(gate, w) == Done
    ensures var p := Publishes(MonitorActions(gate, w));
            && |p| > 0
            && p[|p| - 1] == Publish(gate.topic, ObjectDetected)
            && (forall k :: 0 <= k < |p| ==> p[k].topic == gate.topic)
            && ((forall j :: 0 <= j < |w.stream| ==> w.stream[j].acceptedWrites > 0) ==>
                  forall k :: 0 <= k < |p| - 1 ==> p[k].payload == Clear)
  {
    var before := w.stream[..Handled(w.stream) - 1];
    var p, pb := Publishes(MonitorActions(gate, w)), Publishes(HandlerTrace(gate, before));
    MonitorPublishesSplit(gate, w);
    HandlerTracePublishes(gate, before);
    forall k | 0 <= k < |p| ensures p[k].topic == gate.topic {
      if k < |pb| {
        assert p[k] == pb[k];
      }
    }
    if forall j :: 0 <= j < |w.stream| ==> w.stream[j].acceptedWrites > 0 {
      NoDetectionBeforeTrigger(w.stream);
      forall k | 0 <= k < |p| - 1 ensures p[k].payload == Clear {
        assert p[k] == pb[k];
      }
    }
  }

  /** A completed gate's publishes are those of the handlers before the trigger, then object_detected. */
  lemma MonitorPublishesSplit(gate: Gate, w: GateWorld)
    requires MonitorOutcomeOf(gate, w) == Done
    ensures Publishes(MonitorActions(gate, w))
            == Publishes(HandlerTrace(gate, w.stream[..Handled(w.stream) - 1])) + [Publish(gate.topic, ObjectDetected)]
  {
    var connect := [Connect(Device(gate))];
    assert MonitorActions(gate, w) == connect + SessionActions(gate, w.stream);
    PublishesAppend(connect, SessionActions(gate, w.stream));
    NoPublishes(connect);
    TriggeredSessionPublishes(gate, w.stream);
  }

  /**
   * When every LED write goes through, no notification before the trigger carries the
   * state 1: it would have set the event itself.
   */
  lemma NoDetectionBeforeTrigger(stream: seq<Notification>)
    requires Triggered(stream)
    requires forall j :: 0 <= j < |stream| ==> stream[j].acceptedWrites > 0
    ensures var before := stream[..Handled(stream) - 1];
            forall j :: 0 <= j < |before| ==> |before[j].data| == 0 || before[j].data[0] != 1
  {
    var before := stream[..Handled(stream) - 1];
    forall j | 0 <= j < |before| ensures |before[j].data| == 0 || before[j].data[0] != 1 {
      assert before[j] == stream[j];
      assert !SetsEvent(stream[j]);
    }
  }

  // ---------------------------------------------------------------------------
  // main
  // ---------------------------------------------------------------------------

  datatype HubOutcome =
    | BothGatesPassed                                 // main returned
    | BrokerUnreachable                               // wait_for_broker raised RuntimeError
    | GateStopped(gate: Gate, why: MonitorOutcome)    // monitoring a gate raised or is still waiting

  predicate BrokerReachable(reachable: nat -> bool)
  {
    exists k: nat | k < BrokerAttempts :: reachable(k)
  }

  /** The outcome of monitoring `first` and then, if it completed, `second`. */
  function SequenceOutcome(first: Gate, w1: GateWorld, second: Gate, w2: GateWorld): HubOutcome
  {
    if MonitorOutcomeOf(first, w1) != Done then GateStopped(first, MonitorOutcomeOf(first, w1))
    else if MonitorOutcomeOf(second, w2) != Done then GateStopped(second, MonitorOutcomeOf(second, w2))
    else BothGatesPassed
  }

  /** The trace of monitoring `first` and then, only if it completed, `second`. */
  function SequenceActions(first: Gate, w1: GateWorld, second: Gate, w2: GateWorld): seq<Action>
  {
    MonitorActions(first, w1) + (if MonitorOutcomeOf(first, w1) == Done then MonitorActions(second, w2) else [])
  }

  function HubOutcomeOf(reachable: nat -> bool, w1: GateWorld, w2: GateWorld): HubOutcome
  {
    if !BrokerReachable(reachable) then BrokerUnreachable else SequenceOutcome(Gate1, w1, Gate2, w2)
  }

  /** The trace of main: gate 1's monitoring, then, only if it completed, gate 2's. */
  function HubActions(reachable: nat -> bool, w1: GateWorld, w2: GateWorld): seq<Action>
  {
    if !BrokerReachable(reachable) then [] else SequenceActions(Gate1, w1, Gate2, w2)
  }

  /** The two awaits of main: monitor one gate to completion, then the other. */
  method MonitorInSequence(log: ActionLog, first: Gate, w1: GateWorld, second: Gate, w2: GateWorld)
    returns (r: HubOutcome)
    modifies log
    ensures log.actions == old(log.actions) + SequenceActions(first, w1, second, w2)
    ensures r == SequenceOutcome(first, w1, second, w2)
  {
    var o1 := MonitorGate(log, first, w1);
    if o1 != Done {
      return GateStopped(first, o1);
    }
    var o2 := MonitorGate(log, second, w2);
    AppendAssoc(old(log.actions), MonitorActions(first, w1), MonitorActions(second, w2));
    if o2 != Done {
      return GateStopped(second, o2);
    }
    return BothGatesPassed;
  }

  /** The hub's main: wait for the broker, then monitor gate 1 to completion, then gate 2. */
  method GateSequence(log: ActionLog, reachable: nat -> bool, w1: GateWorld, w2: GateWorld) returns (r: HubOutcome)
    modifies log
    ensures log.actions == old(log.actions) + HubActions(reachable, w1, w2)
    ensures r == HubOutcomeOf(reachable, w1, w2)
  {
    var ok, _ := WaitForBroker(reachable, BrokerAttempts);
    if !ok {
      return BrokerUnreachable;
    }
    r := MonitorInSequence(log, Gate1, w1, Gate2, w2);
  }

  /** No action concerns both configured gates: their topics and devices differ. */
  lemma GatesDistinct(a: Action)
    ensures !(About(a, Gate1) && About(a, Gate2))
  {
    assert Device(Gate1)[1] == 'F' && Device(Gate2)[1] == '0';
  }

  /** A completed monitor_gate call ends by disconnecting its gate's device. */
  lemma MonitorEndsWithDisconnect(gate: Gate, w: GateWorld)
    requires MonitorOutcomeOf(gate, w) == Done
    ensures |MonitorActions(gate, w)| > 0
    ensures MonitorActions(gate, w)[|MonitorActions(gate, w)| - 1] == Disconnect(Device(gate))
  {
  }

  /**
   * A trace made of gate 1's actions followed by gate 2's, where gate 2's part is there
   * only after gate 1's device was disconnected, is in sequence.
   */
  lemma InSequence(t1: seq<Action>, t2: seq<Action>)
    requires forall k :: 0 <= k < |t1| ==> About(t1[k], Gate1)
    requires forall k :: 0 <= k < |t2| ==> About(t2[k], Gate2)
    requires t2 != [] ==> |t1| > 0 && t1[|t1| - 1] == Disconnect(Device(Gate1))
    ensures var t := t1 + t2;
            && (forall i, j :: 0 <= i < j < |t| && About(t[i], Gate2) ==> !About(t[j], Gate1))
            && (forall i :: 0 <= i < |t| && About(t[i], Gate2) ==>
                  exists j :: 0 <= j < i && t[j] == Disconnect(Device(Gate1)))
  {
    var t := t1 + t2;
    forall k | 0 <= k < |t1| ensures !About(t[k], Gate2) {
      assert t[k] == t1[k];
      GatesDistinct(t1[k]);
    }
    forall k | |t1| <= k < |t| ensures !About(t[k], Gate1) {
      assert t[k] == t2[k - |t1|];
      GatesDistinct(t2[k - |t1|]);
    }
    forall i | 0 <= i < |t| && About(t[i], Gate2)
      ensures exists j :: 0 <= j < i && t[j] == Disconnect(Device(Gate1))
    {
      assert i >= |t1|;
      assert t[|t1| - 1] == Disconnect(Device(Gate1));
    }
  }

  /**
   * The gates are monitored strictly in sequence: nothing concerning gate 1 happens after
   * anything concerning gate 2, and anything concerning gate 2 comes after gate 1's
   * device has been disconnected.
   */
  lemma GatesInSequence(reachable: nat -> bool, w1: GateWorld, w2: GateWorld)
    ensures var t := HubActions(reachable, w1, w2);
            && (forall i, j :: 0 <= i < j < |t| && About(t[i], Gate2) ==> !About(t[j], Gate1))
            && (forall i :: 0 <= i < |t| && About(t[i], Gate2) ==>
                  exists j :: 0 <= j < i && t[j] == Disconnect(Device(Gate1)))
  {
    if BrokerReachable(reachable) {
      MonitorActionsAbout(Gate1, w1);
      MonitorActionsAbout(Gate2, w2);
      if MonitorOutcomeOf(Gate1, w1) == Done {
        MonitorEndsWithDisconnect(Gate1, w1);
        InSequence(MonitorActions(Gate1, w1), MonitorActions(Gate2, w2));
      } else {
        InSequence(MonitorActions(Gate1, w1), []);
        assert HubActions(reachable, w1, w2) == MonitorActions(Gate1, w1) + [];
      }
    }
  }
}

=== FILE: wall_segments.dfy ===
/**
 * Clean-up of the wall segments that detect_walls (src/vision.py) receives from the
 * Hough transform: every segment is first turned into a top-left / bottom-right box in
 * place, then near-duplicates are dropped greedily, keeping the first of each cluster.
 */
module WallSegments {

  /** One Hough line [x1, y1, x2, y2], in pixels of the resized image. */
  datatype Segment = Segment(x1: int, y1: int, x2: int, y2: int)

  /** Two segments closer than this on every coordinate are the same wall. */
  const Tolerance := 100

  function Abs(n: int): nat
  {
    if n < 0 then -n else n
  }

  /** (x1, y1) is the top-left corner and (x2, y2) the bottom-right one. */
  predicate Normalized(s: Segment)
  {
    s.x1 <= s.x2 && s.y1 <= s.y2
  }

  /**
   * The segment with each coordinate pair put in order: the x pair is the original x
   * pair, swapped when out of order, and the y pair likewise, independently. A segment
   * that is already normalised is left as it is.
   */
  function Normalize(s: Segment): (r: Segment)
    ensures Normalized(r)
    ensures (r.x1, r.x2) == (s.x1, s.x2) || (r.x1, r.x2) == (s.x2, s.x1)
    ensures (r.y1, r.y2) == (s.y1, s.y2) || (r.y1, r.y2) == (s.y2, s.y1)
    ensures Normalized(s) ==> r == s
  {
    var (x1, x2) := if s.x1 > s.x2 then (s.x2, s.x1) else (s.x1, s.x2);
    var (y1, y2) := if s.y1 > s.y2 then (s.y2, s.y1) else (s.y1, s.y2);
    Segment(x1, y1, x2, y2)
  }

  /**
   * The first loop of the clean-up: every segment of the list is normalised in place,
   * and the list keeps its length and order.
   */
  method NormalizeAll(polygons: array<Segment>)
    modifies polygons
    ensures forall i :: 0 <= i < polygons.Length ==> polygons[i] == Normalize(old(polygons[i]))
  {
    var i := 0;
    while i < polygons.Length
      invariant i <= polygons.Length
      invariant forall j :: 0 <= j < i ==> polygons[j] == Normalize(old(polygons[j]))
      invariant forall j :: i <= j < polygons.Length ==> polygons[j] == old(polygons[j])
    {
      if polygons[i].x1 > polygons[i].x2 {
        polygons[i] := polygons[i].(x1 := polygons[i].x2, x2 := polygons[i].x1);
      }
      if polygons[i].y1 > polygons[i].y2 {
        polygons[i] := polygons[i].(y1 := polygons[i].y2, y2 := polygons[i].y1);
      }
      i := i + 1;
    }
  }

  /** p and up lie within the tolerance of each other on all four coordinates. */
  predicate Close(p: Segment, up: Segment)
  {
    && Abs(p.x1 - up.x1) < Tolerance
    && Abs(p.y1 - up.y1) < Tolerance
    && Abs(p.x2 - up.x2) < Tolerance
    && Abs(p.y2 - up.y2) < Tolerance
  }

  /** The `any(...)` test: some segment already kept is close to p. */
  predicate AnyClose(p: Segment, kept: seq<Segment>)
  {
    exists j | 0 <= j < |kept| :: Close(p, kept[j])
  }

  /** What the greedy pass keeps of s, scanning s from the front. */
  function Deduplicated(s: seq<Segment>): seq<Segment>
  {
    if s == [] then []
    else
      var kept := Deduplicated(s[..|s| - 1]);
      if AnyClose(s[|s| - 1], kept) then kept else kept + [s[|s| - 1]]
  }

  /** No two segments of s are close: any two differ by at least the tolerance somewhere. */
  predicate Separated(s: seq<Segment>)
  {
    forall i, j :: 0 <= i < j < |s| ==> !Close(s[i], s[j])
  }

  predicate StrictlyIncreasing(idx: seq<nat>)
  {
    forall t, t' :: 0 <= t < t' < |idx| ==> idx[t] < idx[t']
  }

  /** The positions in s of the segments the greedy pass keeps. */
  ghost function KeptIndices(s: seq<Segment>): seq<nat>
  {
    if s == [] then []
    else
      var idx := KeptIndices(s[..|s| - 1]);
      if AnyClose(s[|s| - 1], Deduplicated(s[..|s| - 1])) then idx else idx + [|s| - 1]
  }

  /** The kept list is an order-preserving subsequence of the input: the segments at KeptIndices(s). */
  lemma {:induction false} DeduplicatedIsSubsequence(s: seq<Segment>)
    ensures |KeptIndices(s)| == |Deduplicated(s)|
    ensures StrictlyIncreasing(KeptIndices(s))
    ensures forall t :: 0 <= t < |KeptIndices(s)| ==>
              KeptIndices(s)[t] < |s| && Deduplicated(s)[t] == s[KeptIndices(s)[t]]
  {
    if s != [] {
      var n := |s| - 1;
      var init := s[..n];
      DeduplicatedIsSubsequence(init);
      var idx0, idx := KeptIndices(init), KeptIndices(s);
      assert forall t :: 0 <= t < |idx0| ==> s[idx0[t]] == init[idx0[t]];
    }
  }

  /** The `any(...)` test against the kept list, read as a test against the kept positions. */
  lemma AnyCloseAtKept(s: seq<Segment>, p: Segment)
    ensures AnyClose(p, Deduplicated(s)) <==>
            exists t :: 0 <= t < |KeptIndices(s)| && KeptIndices(s)[t] < |s| && Close(p, s[KeptIndices(s)[t]])
  {
    DeduplicatedIsSubsequence(s);
  }

  /** No segment picked by idx before position i lies within the tolerance of s[i]. */
  ghost predicate NoPickedCloseBefore(s: seq<Segment>, idx: seq<nat>, i: nat)
    requires i < |s|
  {
    forall t :: 0 <= t < |idx| && idx[t] < i && idx[t] < |s| ==> !Close(s[i], s[idx[t]])
  }

  /** Segment i is kept exactly when no segment kept before it lies within the tolerance. */
  lemma {:induction false} DeduplicatedIsGreedy(s: seq<Segment>, i: nat)
    requires i < |s|
    ensures i in KeptIndices(s) <==> NoPickedCloseBefore(s, KeptIndices(s), i)
  {
    var n := |s| - 1;
    var init := s[..n];
    DeduplicatedIsSubsequence(init);
    var idx0, idx := KeptIndices(init), KeptIndices(s);
    assert idx == idx0 || idx == idx0 + [n];
    assert forall t :: 0 <= t < |idx0| ==> idx0[t] < n && s[idx0[t]] == init[idx0[t]];
    if i < n {
      DeduplicatedIsGreedy(init, i);
      PickedBeforeUnchanged(s, idx0, idx, i);
    } else {
      AnyCloseAtKept(init, s[n]);
      PickedBeforeUnchanged(s, idx0, idx, n);
      assert n !in idx0;
    }
  }

  /**
   * Appending n to the picks changes nothing about the picks before any i <= n, and those
   * picks read the same in s and in s without its last segment.
   */
  lemma PickedBeforeUnchanged(s: seq<Segment>, idx0: seq<nat>, idx: seq<nat>, i: nat)
    requires i < |s|
    requires idx == idx0 || idx == idx0 + [|s| - 1]
    requires forall t :: 0 <= t < |idx0| ==> idx0[t] < |s| - 1
    ensures i < |s| - 1 ==> (NoPickedCloseBefore(s, idx, i) <==> NoPickedCloseBefore(s[..|s| - 1], idx0, i))
    ensures i == |s| - 1 ==> (NoPickedCloseBefore(s, idx, i) <==> !exists t :: 0 <= t < |idx0| && Close(s[i], s[idx0[t]]))
  {
    assert forall t :: 0 <= t < |idx| && idx[t] < i ==> t < |idx0| && idx[t] == idx0[t];
  }

  /** Close is symmetric: both directions of every coordinate difference are measured by Abs. */
  lemma CloseSymmetric(p: Segment, q: Segment)
    ensures Close(p, q) <==> Close(q, p)
  {
  }

  /**
   * What the greedy pass promises: a non-empty input keeps its first segment, every input
   * segment is within the tolerance of some kept segment, and the kept segments are
   * pairwise separated.
   */
  lemma DeduplicatedProperties(s: seq<Segment>)
    ensures s != [] ==> |Deduplicated(s)| > 0 && Deduplicated(s)[0] == s[0]
    ensures forall i :: 0 <= i < |s| ==> AnyClose(s[i], Deduplicated(s))
    ensures Separated(Deduplicated(s))
  {
    var kept, idx := Deduplicated(s), KeptIndices(s);
    DeduplicatedIsSubsequence(s);
    if s != [] {
      DeduplicatedIsGreedy(s, 0);
      assert 0 in idx;
      assert forall t :: 0 < t < |idx| ==> idx[t] > idx[0] >= 0;
      assert idx[0] == 0;
    }
    forall i | 0 <= i < |s| ensures AnyClose(s[i], kept) {
      DeduplicatedIsGreedy(s, i);
      if i in idx {
        var t :| 0 <= t < |idx| && idx[t] == i;
        assert Close(s[i], kept[t]);
      } else {
        var t :| 0 <= t < |idx| && idx[t] < i && Close(s[i], s[idx[t]]);
        assert Close(s[i], kept[t]);
      }
    }
    forall t, t' | 0 <= t < t' < |kept| ensures !Close(kept[t], kept[t']) {
      var i := idx[t'];
      DeduplicatedIsGreedy(s, i);
      assert i in idx;
      assert idx[t] < i;
      CloseSymmetric(kept[t], kept[t']);
    }
  }

  /** A list with no two close segments passes the greedy pass unchanged. */
  lemma {:induction false} DeduplicatedKeepsSeparated(s: seq<Segment>)
    requires Separated(s)
    ensures Deduplicated(s) == s
  {
    if s != [] {
      var n := |s| - 1;
      var init := s[..n];
      SeparatedParts(s);
      DeduplicatedKeepsSeparated(init);
      LastSplit(s);
    }
  }

  /** A non-empty list is its prefix followed by its last segment. */
  lemma LastSplit(s: seq<Segment>)
    requires s != []
    ensures s == s[..|s| - 1] + [s[|s| - 1]]
  {
  }

  /** In a separated list, the prefix is separated and the last segment is close to none before it. */
  lemma SeparatedParts(s: seq<Segment>)
    requires Separated(s) && s != []
    ensures Separated(s[..|s| - 1])
    ensures !AnyClose(s[|s| - 1], s[..|s| - 1])
  {
    var n := |s| - 1;
    var init := s[..n];
    forall i, j | 0 <= i < j < |init| ensures !Close(init[i], init[j]) {
      assert init[i] == s[i] && init[j] == s[j];
    }
    forall j | 0 <= j < n ensures !Close(s[n], init[j]) {
      assert init[j] == s[j];
      CloseSymmetric(s[n], s[j]);
    }
  }

  /** Re-running the greedy pass on its own output changes nothing. */
  lemma DeduplicatedIdempotent(s: seq<Segment>)
    ensures Deduplicated(Deduplicated(s)) == Deduplicated(s)
  {
    DeduplicatedProperties(s);
    DeduplicatedKeepsSeparated(Deduplicated(s));
  }

  /** Every segment of s normalised, in place and in order. */
  function NormalizeEach(s: seq<Segment>): (r: seq<Segment>)
    ensures |r| == |s|
    ensures forall i :: 0 <= i < |r| ==> Normalized(r[i])
  {
    seq(|s|, i requires 0 <= i < |s| => Normalize(s[i]))
  }

  /** Normalising a list of normalised segments changes nothing. */
  lemma NormalizeEachFixed(s: seq<Segment>)
    requires forall i :: 0 <= i < |s| ==> Normalized(s[i])
    ensures NormalizeEach(s) == s
  {
  }

  /** The greedy pass keeps only segments of its input, so it keeps normalised lists normalised. */
  lemma DeduplicatedKeepsNormalized(s: seq<Segment>)
    requires forall i :: 0 <= i < |s| ==> Normalized(s[i])
    ensures forall j :: 0 <= j < |Deduplicated(s)| ==> Normalized(Deduplicated(s)[j])
  {
    DeduplicatedIsSubsequence(s);
    forall j | 0 <= j < |Deduplicated(s)| ensures Normalized(Deduplicated(s)[j]) {
      assert Deduplicated(s)[j] == s[KeptIndices(s)[j]];
    }
  }

  /** The whole clean-up, normalisation then de-duplication, as a function of the Hough segments. */
  function CleanedUp(s: seq<Segment>): seq<Segment>
  {
    Deduplicated(NormalizeEach(s))
  }

  /** Cleaning up the walls a second time changes nothing. */
  lemma CleanUpIdempotent(s: seq<Segment>)
    ensures CleanedUp(CleanedUp(s)) == CleanedUp(s)
  {
    var walls := CleanedUp(s);
    DeduplicatedKeepsNormalized(NormalizeEach(s));
    NormalizeEachFixed(walls);
    DeduplicatedIdempotent(NormalizeEach(s));
  }

  /** The second loop of the clean-up: keep a segment unless one already kept is close to it. */
  method Deduplicate(polygons: seq<Segment>) returns (newPolys: seq<Segment>)
    ensures newPolys == Deduplicated(polygons)
  {
    newPolys := [];
    var i := 0;
    while i < |polygons|
      invariant i <= |polygons|
      invariant newPolys == Deduplicated(polygons[..i])
    {
      var p := polygons[i];
      assert polygons[..i + 1][..i] == polygons[..i];
      if !AnyClose(p, newPolys) {
        newPolys := newPolys + [p];
      }
      i := i + 1;
    }
    assert polygons[..i] == polygons;
  }

  /**
   * Lines 133-150 of detect_walls: normalise the Hough segments in place, then drop
   * near-duplicates. The result consists of normalised, pairwise separated segments,
   * taken in order from the normalised list.
   */
  method CleanUp(polygons: array<Segment>) returns (walls: seq<Segment>)
    modifies polygons
    ensures polygons[..] == NormalizeEach(old(polygons[..]))
    ensures walls == CleanedUp(old(polygons[..]))
    ensures forall j :: 0 <= j < |walls| ==> Normalized(walls[j])
    ensures Separated(walls)
  {
    NormalizeAll(polygons);
    assert polygons[..] == NormalizeEach(old(polygons[..]));
    walls := Deduplicate(polygons[..]);
    DeduplicatedProperties(polygons[..]);
    DeduplicatedKeepsNormalized(polygons[..]);
  }
}
